=== FILE: README.md ===
# Flex Plan wizard — a Dafny model

This project models how a consumer provisions a Flex Plan: a prepaid,
pay-per-request plan for one deployment, served by independent node
operators. Settlement goes through the SQT ledger, and an off-chain billing
service tracks the plan. It also models the low-balance warning in the
account dropdown.

The model covers the `CreateFlexPlan` wizard component in three steps:

- choose a plan (economy, performance or a custom price);
- deposit SQT into the billing account;
- confirm.

The confirm step runs a four-stage pipeline:

1. approve the billing contract's allowance;
2. deposit;
3. make sure the account has its API key;
4. create the hosting plan, or update the existing one.

Around the wizard, the model covers:

- the tier-price estimator over the sampled provider offers;
- the values derived at every render: matched operators, affordable requests, suggested deposit, the three "stage needed" flags and the button label.

From `AccountActions` it models two things: the low-balance predicate (400 SQT) and the dropdown menu's gating on the open state.

Modules, in dependency order:

- `Basics`: Option, the `|| 0` reading of absent numbers, and the SQT scale.
  - Every token amount is a natural number of base units, with 10^18 base units to one SQT.
  - BigNumber and ethers conversions become exact rescalings.
- `Offers`: the offer sample and the two sorts applied to it.
  - The price sort is ascending.
  - The `max_time` sort is descending and runs in place in the plan stage.
  - Also: counting, ranks and the maximum.
- `PriceEstimator`: `estimatedPriceInfo`.
- `FlexPlanValues`: the per-render derivations.
- `BillingWorld`: the ledger and the billing service as one state with a log of every call.
  - Every call can be made to fail through a per-kind fault table.
  - The ledger's `deposit` also reverts when the allowance or the wallet balance is too small.
- `ConfirmPipeline`: the confirm handler as four stage functions.
  - Each stage states exactly what it appends to the log.
  - All stages share one contract on the shape of the log: ranks in pipeline order; a successful run leaves only successful mutating calls; a failed run stops at its first failed mutating call.
- `ConfirmProperties`: properties across the stages, for example:
  - only prescribed calls are made;
  - the approval is made iff the cached allowance is short;
  - the plan request's parameters;
  - what a second click does.
- `FlexPlanWizard`: the component as a class. Its fields are the step, the selected card, the form fields, the cached allowance and balance, the offer sample and the loading flags. Its methods are the handlers.
- `AccountActions`: the warning predicate and the menu.

Behaviour of the code worth noting:

- **Estimator example.** For per-1000 prices 10..60 the estimator gives economy 40 and performance 60.
  - Line 115 computes index ceil(0.4·6) = 3 and line 116 computes ceil(0.8·6) = 5.
  - `EstimateSixOffers` proves this.
- **Rounding in `enoughReq`.** `enoughReq` rounds half-up, BigNumber's `decimalPlaces(0)` default.
- **Stale flags.** The stage flags are the values memoised at the last render. The handler does not read the allowance afresh. `StaleAllowanceRejectsDeposit` shows the consequence.
- **Re-running.** A second successful click sends the plan request again, and that is its only mutating call. `SecondRunRepeatsOnlyThePlan` proves this.
- **Custom price rule.** The custom card's price is checked only for presence before the wizard advances.

## Model

| member | source | states |
|---|---|---|
| Offers.PerThousand | src/components/CreateFlexPlan/index.tsx:44-46 | the per-1000 price is a whole multiple of 1000 whose thousandth is the per-request price |
| Offers.Prices1000 | src/components/CreateFlexPlan/index.tsx:97 | one per-1000 price per offer; `Prices1000At` gives each position |
| Offers.Prices1000At | src/components/CreateFlexPlan/index.tsx:97 | position i of the price list is the i-th offer's per-1000 price, in the offers' order |
| Offers.SortAsc | src/components/CreateFlexPlan/index.tsx:97 | the estimator's price sort yields an ascending permutation of the prices, of the same length |
| Offers.AscendingUnique | src/components/CreateFlexPlan/index.tsx:97 | two ascending sequences with the same multiset are equal, so the sort's result is determined by the multiset alone |
| Offers.SortAscPermutation | src/components/CreateFlexPlan/index.tsx:97 | sorting two permutations of the same prices gives the same sequence |
| Offers.CountPermutation | src/components/CreateFlexPlan/index.tsx:126-129 | the count of prices at most (below) a bound does not depend on their order |
| Offers.SortedRank | src/components/CreateFlexPlan/index.tsx:97 | position k of the sorted prices holds the k-th smallest price: at most k prices are below it and more than k are at most it |
| Offers.RankUnique | src/components/CreateFlexPlan/index.tsx:97 | a rank determines its price |
| Offers.MaxOf | src/components/CreateFlexPlan/index.tsx:98 | reference maximum: a member of the sample, at least every member |
| Offers.SortedLastIsMax | src/components/CreateFlexPlan/index.tsx:98 | the last element of the sorted prices is the sample maximum |
| Offers.SortByMaxTime | src/components/CreateFlexPlan/index.tsx:226 | the in-place `max_time` sort leaves the offers ordered by descending duration and is a permutation |
| Offers.MaxTimeOf | src/components/CreateFlexPlan/index.tsx:226 | reference reading of the longest duration: some offer has it and no offer exceeds it |
| Offers.SortByMaxTimeHead | src/components/CreateFlexPlan/index.tsx:226 | after the sort the first offer carries the longest duration |
| Offers.MaxTimeOfPermutation | src/components/CreateFlexPlan/index.tsx:226 | the longest duration depends only on which offers are present |
| Offers.SortByMaxTimePrices | src/components/CreateFlexPlan/index.tsx:226 | the `max_time` sort keeps the multiset of per-1000 prices |
| PriceEstimator.CeilDiv | src/components/CreateFlexPlan/index.tsx:115-116 | `Math.ceil(a / b)` on naturals: the least r with a <= r·b |
| PriceEstimator.EconomyIndex | src/components/CreateFlexPlan/index.tsx:115 | the economy index is max(2, ceil(0.4n)) and lies inside a sample of six or more |
| PriceEstimator.PerformanceIndex | src/components/CreateFlexPlan/index.tsx:116 | the performance index is max(4, ceil(0.8n)) and lies strictly between the economy index and n for n >= 6 |
| PriceEstimator.TiersOfSorted | src/components/CreateFlexPlan/index.tsx:98-121 | reading tiers off the ascending prices never makes performance cheaper than economy, and every index read is in range |
| PriceEstimator.EstimateTiers | src/components/CreateFlexPlan/index.tsx:88-122 | economy never exceeds performance; an absent or empty sample gives zero for both |
| PriceEstimator.EstimateThinSample | src/components/CreateFlexPlan/index.tsx:101-106 | with one to three offers both tiers are the highest per-1000 price |
| PriceEstimator.EstimateMidSample | src/components/CreateFlexPlan/index.tsx:108-113 | with four or five offers economy is the price of rank 2 and performance the highest price |
| PriceEstimator.EstimateLargeSample | src/components/CreateFlexPlan/index.tsx:115-121 | with six or more offers both indices are in bounds and the tiers are the prices of ranks max(2, ceil(0.4n)) and max(4, ceil(0.8n)) |
| PriceEstimator.EstimateInSample | src/components/CreateFlexPlan/index.tsx:88-122 | each recommended price of a non-empty sample is some offer's per-1000 price |
| PriceEstimator.EstimatePriceMultiset | src/components/CreateFlexPlan/index.tsx:97 | the estimate depends only on the multiset of per-1000 prices |
| PriceEstimator.EstimateUnchangedBySort | src/components/CreateFlexPlan/index.tsx:226 | the plan stage's in-place sort of the sample leaves the estimate unchanged |
| PriceEstimator.SortsToTenThroughSixty | src/components/CreateFlexPlan/index.tsx:97 | any order of the prices 10..60 thousand sorts to the ascending list |
| PriceEstimator.EstimateSixOffers | src/components/CreateFlexPlan/index.tsx:115-121 | six offers at 10..60 per 1000 give economy 40 and performance 60 |
| FlexPlanValues.ResolvedMaximum | src/components/CreateFlexPlan/index.tsx:174 | `maximum \|\| 2`: never zero; a present non-zero limit is kept; an absent or zero limit becomes 2 |
| FlexPlanValues.DepositAmountValid | src/components/CreateFlexPlan/index.tsx:470 | the deposit form's rule, a present amount of at least 500 SQT; `NextOnDepositStep` advances exactly when it holds, and `NeedDepositMore` deposits every amount it accepts |
| FlexPlanValues.TierPrice | src/components/CreateFlexPlan/index.tsx:170 | the estimate of the chosen tier copied into the price field; `NextOnPlanStep` copies it, `MatchedAtTierPrices` and `TierPlanPriceIsQuoted` state what it buys |
| FlexPlanValues.TierMaximum | src/components/CreateFlexPlan/index.tsx:171 | 8 providers for economy and 15 for performance; `NextOnPlanStep` copies it into the limit |
| FlexPlanValues.MatchedCount | src/components/CreateFlexPlan/index.tsx:124-131 | zero for a falsy price or an absent or empty sample; never more than the sample size |
| FlexPlanValues.MatchedCountMonotone | src/components/CreateFlexPlan/index.tsx:124-131 | a higher entered price never matches fewer operators |
| FlexPlanValues.MatchedCountUnchangedBySort | src/components/CreateFlexPlan/index.tsx:124-131 | the plan stage's sort of the sample does not change the matched count |
| FlexPlanValues.MatchedAtTierPrices | src/components/CreateFlexPlan/index.tsx:88-131 | the economy price is met by more than 40% of the offers and the performance price by more than 80% |
| FlexPlanValues.RoundHalfUp | src/components/CreateFlexPlan/index.tsx:139 | `decimalPlaces(0)` under ROUND_HALF_UP: the nearest integer to a/b, halves upward |
| FlexPlanValues.EnoughRequests | src/components/CreateFlexPlan/index.tsx:133-143 | zero for a falsy price or a zero or absent balance; Infinity for a price of "0"; otherwise balance·1000/price rounded half-up |
| FlexPlanValues.EnoughRequestsExamples | src/components/CreateFlexPlan/index.tsx:133-143 | 1000 SQT at 100 SQT per 1000 requests pays for 10000 requests; a zero balance for none |
| FlexPlanValues.EnoughRequestsRoundsHalfUp | src/components/CreateFlexPlan/index.tsx:139 | 1.5 requests round to 2 |
| FlexPlanValues.EnoughRequestsZeroEstimate | src/components/CreateFlexPlan/index.tsx:134-140 | a tier estimate of "0" with a positive balance reads as unlimited |
| FlexPlanValues.RoundHalfUpExact | src/components/CreateFlexPlan/index.tsx:139 | an exact quotient is not rounded |
| FlexPlanValues.SuggestedDeposit | src/components/CreateFlexPlan/index.tsx:455-458 | zero without a price, otherwise at least 20 times the per-1000 price; `SuggestedDepositAffords` shows what it pays for |
| FlexPlanValues.SuggestedDepositAffords | src/components/CreateFlexPlan/index.tsx:454-458 | a balance equal to the suggestion price·20·(maximum \|\| 2) pays for exactly 20000·(maximum \|\| 2) requests |
| FlexPlanValues.NeedAddAllowance | src/components/CreateFlexPlan/index.tsx:154-157 | approve exactly when the cached allowance (absent as 0) is below the amount (absent as 0) |
| FlexPlanValues.NeedDepositMore | src/components/CreateFlexPlan/index.tsx:159-162 | every amount the deposit form accepts is deposited, and with nothing to deposit no approval is asked for whatever the cached allowance; `DepositStage` makes the deposit call exactly when this flag holds and the contracts are loaded, and `DepositMadeWhenReached` shows the call is made |
| FlexPlanValues.NeedCreateApiKey | src/components/CreateFlexPlan/index.tsx:164 | the key is looked for only when the wizard opened without one; `ApiKeyStage` lists the keys exactly when this flag holds |
| FlexPlanValues.NextButtonLabel | src/components/CreateFlexPlan/index.tsx:145-152 | the label names the deposit exactly on step 1 and the on-chain confirmation exactly on step 2 |
| BillingWorld.ApproveTx | src/components/CreateFlexPlan/index.tsx:188-191 | the approval is logged, succeeds unless faulted, and then sets the allowance to the amount and nothing else |
| BillingWorld.DepositTx | src/components/CreateFlexPlan/index.tsx:193-198 | the deposit is logged; it succeeds iff not faulted and both the allowance and the wallet cover the amount, and then moves exactly the amount from the wallet into the billing account |
| BillingWorld.ListApiKeys | src/components/CreateFlexPlan/index.tsx:202 | the listing is logged and returns the account's key names unless faulted |
| BillingWorld.CreateApiKey | src/components/CreateFlexPlan/index.tsx:207-213 | the creation is logged and on success appends exactly the new name |
| BillingWorld.NewPlanId | src/components/CreateFlexPlan/index.tsx:220-228 | the id the service gives a new plan is above every id in use |
| BillingWorld.CreateHostingPlan | src/components/CreateFlexPlan/index.tsx:220-228 | the creation is logged and on success stores the request under an id not in use, adding exactly one plan and keeping every existing plan; only the plans and the log change |
| BillingWorld.UpdateHostingPlan | src/components/CreateFlexPlan/index.tsx:220-228 | the update is logged and on success the plans become the old plans with the request stored under its id, and nothing else; only the plans and the log change on success, and only the log on failure |
| ConfirmPipeline.StageChain | src/components/CreateFlexPlan/index.tsx:186-243 | a successful stage followed by a later stage keeps the log contract over both |
| ConfirmPipeline.ApprovalStage | src/components/CreateFlexPlan/index.tsx:188-191 | approves the amount exactly when the cached flag says so, and otherwise changes nothing; it fails exactly when that approval fails; on success the allowance and its cache equal the amount; only the allowance, its cache and the log can change |
| ConfirmPipeline.DepositStage | src/components/CreateFlexPlan/index.tsx:193-198 | deposits the amount exactly when it is non-zero and the contracts are loaded; on success refetches the balance, zeroes the field, takes the amount from the wallet and the allowance and credits it to the billing account; otherwise the world changes only in its log; a zero amount changes nothing; the keys, plans, allowance cache and sample never change |
| ConfirmPipeline.ApiKeyStage | src/components/CreateFlexPlan/index.tsx:200-215 | without a key at mount lists the keys, and creates the special key only when the listing succeeded without it; a listing error is ignored; existing keys are never removed; only the keys and the log can change |
| ConfirmPipeline.SortedSample | src/components/CreateFlexPlan/index.tsx:226 | the sample after the in-place sort: present exactly when the sample is, and a permutation of it |
| ConfirmPipeline.PlanExpiration | src/components/CreateFlexPlan/index.tsx:226 | the plan's expiration is never zero, seven days without a sample; `PlanCallParameters` ties it to the longest offered duration |
| ConfirmPipeline.PlanCall | src/components/CreateFlexPlan/index.tsx:220-228 | the plan request is the pipeline's last kind of call |
| ConfirmPipeline.SubmitPlan | src/components/CreateFlexPlan/index.tsx:220-233 | the plan request is logged and fails exactly when its kind is faulted; only the plans and the log can change, and a failure leaves the plans as they were |
| ConfirmPipeline.PlanStage | src/components/CreateFlexPlan/index.tsx:217-233 | an unset price throws before any call; an empty sample throws at `[0].max_time`; otherwise exactly the plan request is sent and the sample is left sorted; only the plans, the log and the sample's order can change |
| ConfirmPipeline.Confirm | src/components/CreateFlexPlan/index.tsx:185-243 | the calls come in pipeline order; success means every mutating call succeeded and the last was the plan request; an error means the run stopped at its first failure |
| ConfirmProperties.MutatingCalls | src/components/CreateFlexPlan/index.tsx:185-243 | the calls of a log that change a system of record |
| ConfirmProperties.ConfirmMakesOnlyPrescribedCalls | src/components/CreateFlexPlan/index.tsx:185-233 | every call is the one its gate prescribes, with the prescribed arguments |
| ConfirmProperties.SuccessfulRunStages | src/components/CreateFlexPlan/index.tsx:185-235 | a successful run passed every stage successfully |
| ConfirmProperties.ApprovalMadeIffNeeded | src/components/CreateFlexPlan/index.tsx:188-191 | an approval is made iff the cached allowance is below the amount |
| ConfirmProperties.DepositMadeWhenReached | src/components/CreateFlexPlan/index.tsx:193-198 | when the approval is not needed or not faulted, and the contracts are loaded, a non-zero amount is deposited |
| ConfirmProperties.ApprovalFailureStopsEverything | src/components/CreateFlexPlan/index.tsx:188-191 | a failed approval is the run's only call and its error is the run's error |
| ConfirmProperties.StaleAllowanceRejectsDeposit | src/components/CreateFlexPlan/index.tsx:154-157 | when the live allowance is below the amount but the cached one covers it, the approval is skipped and the deposit reverts for lack of allowance, ending the run |
| ConfirmProperties.FreshAllowanceDepositSucceeds | src/components/CreateFlexPlan/index.tsx:188-198 | with an up-to-date cache and enough in the wallet, the deposit succeeds and credits the amount |
| ConfirmProperties.SuccessfulRunLedger | src/components/CreateFlexPlan/index.tsx:185-198 | after success, when a deposit was due and the contracts were loaded, exactly the amount left the wallet and reached the billing account, and otherwise neither balance moved; the allowance is the approved or previous one less the deposit |
| ConfirmProperties.ConfirmConservesFunds | src/components/CreateFlexPlan/index.tsx:185-243 | whatever the outcome, wallet plus billing balance is unchanged and the billing balance never drops |
| ConfirmProperties.ConfirmSuccessSendsPlan | src/components/CreateFlexPlan/index.tsx:217-235 | a successful run had a price and a usable sample and ended with the plan request for the sorted sample |
| ConfirmProperties.NoPlanWithoutPriceOrSample | src/components/CreateFlexPlan/index.tsx:217-226 | without a price, or with an empty sample, the run fails and no plan request is sent |
| ConfirmProperties.PlanCallParameters | src/components/CreateFlexPlan/index.tsx:220-228 | update iff a previous plan exists; the request carries the deployment, the entered price divided by 1000 and truncated, the whole limit, the longest offered duration or seven days, and the previous plan's id or 0 |
| ConfirmProperties.TierPlanPriceIsQuoted | src/components/CreateFlexPlan/index.tsx:168-171 | a tier card sends some offer's own per-request price |
| ConfirmProperties.SuccessfulRunLeaves | src/components/CreateFlexPlan/index.tsx:185-235 | after success nothing is left to deposit, the faults are as before, the sample is the sorted non-empty sample, the plan request's kind is not faulted, and, when the wizard opened without a key and the listing is not faulted, the special key is present |
| ConfirmProperties.RunWithNothingLeft | src/components/CreateFlexPlan/index.tsx:185-233 | with nothing to deposit and the key present, a run only lists the keys and sends the plan request |
| ConfirmProperties.PlanCallStable | src/components/CreateFlexPlan/index.tsx:226 | sorting the sorted sample again sends the same plan request |
| ConfirmProperties.SecondRunRepeatsOnlyThePlan | src/components/CreateFlexPlan/index.tsx:185-243 | clicking again after success succeeds, and its only mutating call is the same plan request once more |
| FlexPlanWizard.SampleFrom | src/components/CreateFlexPlan/index.tsx:73-86 | a failed listing leaves an empty sample; an empty listing leaves none; otherwise the listing's offers are kept |
| FlexPlanWizard.CreateFlexPlan.constructor | src/components/CreateFlexPlan/index.tsx:48-70 | mounts on step 0 with the economy card, empty forms and the sample loading |
| FlexPlanWizard.CreateFlexPlan.SampleArrived | src/components/CreateFlexPlan/index.tsx:73-86 | the settled listing becomes the sample and the loading flag drops |
| FlexPlanWizard.CreateFlexPlan.Refetch | src/components/CreateFlexPlan/index.tsx:250-258 | after an account change the caches hold the live allowance and billing balance |
| FlexPlanWizard.CreateFlexPlan.SelectPlan | src/components/CreateFlexPlan/index.tsx:286-349 | selects the card; switching to the custom card from a tier card clears the plan form |
| FlexPlanWizard.CreateFlexPlan.EnterPrice | src/components/CreateFlexPlan/index.tsx:361-374 | typing a price stores a number; clearing it unsets it |
| FlexPlanWizard.CreateFlexPlan.EnterMaximum | src/components/CreateFlexPlan/index.tsx:378-390 | the optional provider limit is stored as typed |
| FlexPlanWizard.CreateFlexPlan.EnterAmount | src/components/CreateFlexPlan/index.tsx:466-481 | the deposit amount is stored as typed |
| FlexPlanWizard.CreateFlexPlan.Back | src/components/CreateFlexPlan/index.tsx:555-561 | on step 0 leaves the wizard and changes nothing; otherwise goes one step back |
| FlexPlanWizard.CreateFlexPlan.Skip | src/components/CreateFlexPlan/index.tsx:566-578 | clears the amount and moves to the confirmation step, after which neither approval nor deposit is needed |
| FlexPlanWizard.CreateFlexPlan.NextOnPlanStep | src/components/CreateFlexPlan/index.tsx:167-178 | a tier card copies its estimate and limit (8 or 15); the custom card is rejected without a price, otherwise its limit defaults to 2 |
| FlexPlanWizard.CreateFlexPlan.NextOnDepositStep | src/components/CreateFlexPlan/index.tsx:180-183 | advances exactly when the amount is at least 500 SQT |
| FlexPlanWizard.CreateFlexPlan.NextOnConfirmStep | src/components/CreateFlexPlan/index.tsx:185-243 | runs the pipeline from this render's values, writes its progress back and clears the loading flag |
| FlexPlanWizard.CreateFlexPlan.WriteBack | src/components/CreateFlexPlan/index.tsx:193-198 | the component's fields take the allowance cache, balance cache, amount and sample that a run left |
| FlexPlanWizard.CreateFlexPlan.Next | src/components/CreateFlexPlan/index.tsx:166-244 | ignored while the sample or a run is loading; otherwise acts on the clicked step only: steps 0 and 1 leave the world, the amount, the sample and both caches unchanged |
| AccountActions.WarnDeposit | src/components/AccountActions/AccountActions.tsx:76-91 | a warning needs an open, loaded dropdown and a known balance; `NoWarningWithoutBalance`, `WarningThreshold`, `WarningDownwardClosed` and `WarningPlacement` state where it holds |
| AccountActions.Menu | src/components/AccountActions/AccountActions.tsx:93-295 | seven entries when open and none when closed; only the billing-balance entry can carry the warning |
| AccountActions.Rendered | src/components/AccountActions/AccountActions.tsx:76-295 | the rendered menu has the seven entries exactly when open; `OpenMenuKeys`, `ClosedMenuEmpty` and `WarningPlacement` give its contents |
| AccountActions.NoWarningWithoutBalance | src/components/AccountActions/AccountActions.tsx:79-80 | a zero or absent balance never warns |
| AccountActions.WarningThreshold | src/components/AccountActions/AccountActions.tsx:72-81 | one base unit below 400 SQT warns; 400 SQT does not |
| AccountActions.WarningDownwardClosed | src/components/AccountActions/AccountActions.tsx:76-91 | a warning persists as the balance falls, down to one base unit |
| AccountActions.WarningExamples | src/components/AccountActions/AccountActions.tsx:72-91 | 350 SQT warns; 0 and 500 SQT do not |
| AccountActions.ClosedMenuEmpty | src/components/AccountActions/AccountActions.tsx:93-95 | a closed dropdown has no entries |
| AccountActions.OpenMenuKeys | src/components/AccountActions/AccountActions.tsx:96-291 | an open dropdown has the seven entries in a fixed key order, each key once |
| AccountActions.WarningPlacement | src/components/AccountActions/AccountActions.tsx:221-228 | the warning sits in the billing-balance entry only, exactly when the predicate holds |

## Left out

- **Floating point and display formatting.**
  - The USD estimate `estimatedUs` (lines 246-248) is not modelled.
  - Neither is `toFixed`/`toLocaleString` formatting.
  - `Math.ceil(n * 0.4)` and `Math.ceil(n * 0.8)` are modelled as exact integer ceilings.
- **Decimal libraries.** BigNumber, `formatUnits`, `formatSQT` and `parseEther` are modelled as exact fixed-scale conversions. This leaves out:
  - BigNumber's 20-digit division;
  - exponential `toString()` of large or tiny tier estimates, which would make `parseEther` throw;
  - decimal inputs finer than one base unit.
- FlexPlanValues.EnoughRequests: the result is an exact rounding of balance·1000/price. BigNumber divides to 20 decimal places before multiplying, and that intermediate rounding is not modelled.
- **Plan form limits.**
  - A fractional custom provider limit (rounded up by `Math.ceil` at line 225) is not modelled: limits are whole numbers.
  - The input boxes' `min` clamping (1 and 2) is not modelled.
- **`specialApiKeyName` value.** Its value comes from `GetEndpoint`, which is not part of this model; only the name's identity is used.
- **Asynchrony.**
  - The confirm handler is modelled as one atomic step, so `Back` during a running confirm and the loading flag's visibility mid-run are not modelled.
  - ConfirmPipeline.ApiKeyStage: a listing by `getUserApiKeysApi` (line 202) that throws, rather than returning an error object, would abort the run in the code; the model treats every listing failure as the tolerated error object and goes on to the plan stage.
  - Failing refetches are not modelled.
  - The `onSuccess` and `onBack` callbacks are events, not modelled code.
  - `useAddAllowance` internals are abstracted as one approval call, and `useAddAllowance` is not part of this model. The model reads it as an ERC-20 `approve` that sets the allowance to the amount, not one that raises the allowance by it.
- **Service semantics.** Beyond storing the request, updating an unknown plan id and the service's own validation are not modelled.
- **Stale menu memo.** The account menu's memo (line 295) does not list `warnDeposit` among its dependencies. A balance change that does not toggle a loading flag can therefore show a stale warning until the dropdown reopens; the model recomputes the menu from the current warning.
- **Out of scope:**
  - wallet actions in the account menu (add token, navigation, disconnect);
  - `useSpaceId`, `BreadcrumbNav`, `App` and the i18n strings;
  - all JSX rendering.

=== FILE: account_actions.dfy ===
/** The account dropdown (AccountActions): while it is open it lists the
    account's balances and actions, and the billing-balance entry carries a
    low-balance warning when the billing account holds some, but less than
    400 SQT. Balances are naturals in base units (see `Basics.Sqt`); the
    dropdown's only state is whether it is open, which the dropdown sets
    wholesale when it opens or closes. */
module AccountActions {
  import opened Basics

  /** The low-balance floor, in whole SQT (lines 72-74). */
  const MinDeposit: nat := 400

  /** Lines 76-91: the warning is computed only while the dropdown is open and
      the billing balance has loaded; an absent balance reads as zero, and a
      zero balance is not "low". */
  predicate WarnDeposit(open: bool, loading: bool, balance: Option<nat>)
    ensures WarnDeposit(open, loading, balance) ==> open && !loading && balance.Some?
  {
    if !loading && open then
      var b := OrZero(balance);
      b != 0 && b < MinDeposit * Sqt
    else
      false
  }

  /** One entry of the dropdown menu: its key and whether the low-balance
      warning is rendered inside it. */
  datatype MenuItem = MenuItem(key: string, warning: bool)

  const MenuKeys: seq<string> :=
    ["header", "walletBalance", "bridge tokens", "billingBalance", "addTokens", "myProfile", "disconnect"]

  /** Lines 93-295: the menu is empty while the dropdown is closed; when open it
      holds the seven entries in a fixed order, and the billing-balance entry
      shows the warning once the billing balance has loaded. */
  function Menu(open: bool, loading: bool, warning: bool): (items: seq<MenuItem>)
    ensures |items| == (if open then |MenuKeys| else 0)
    ensures forall i :: 0 <= i < |items| && items[i].warning ==> items[i].key == "billingBalance"
  {
    if open then
      [ MenuItem("header", false),
        MenuItem("walletBalance", false),
        MenuItem("bridge tokens", false),
        MenuItem("billingBalance", !loading && warning),
        MenuItem("addTokens", false),
        MenuItem("myProfile", false),
        MenuItem("disconnect", false) ]
    else
      []
  }

  /** The menu the dropdown renders for an open state and a billing-balance
      result. */
  function Rendered(open: bool, loading: bool, balance: Option<nat>): (items: seq<MenuItem>)
    ensures |items| == (if open then |MenuKeys| else 0)
  {
    Menu(open, loading, WarnDeposit(open, loading, balance))
  }

  /** A zero or absent balance never warns, whatever the dropdown shows. */
  lemma NoWarningWithoutBalance(open: bool, loading: bool, balance: Option<nat>)
    requires balance == None || balance == Some(0)
    ensures !WarnDeposit(open, loading, balance)
  {
  }

  /** The threshold is tight: one base unit below 400 SQT warns, 400 SQT does
      not. */
  lemma WarningThreshold()
    ensures WarnDeposit(true, false, Some(400 * Sqt - 1))
    ensures !WarnDeposit(true, false, Some(400 * Sqt))
  {
  }

  /** A warning persists as the balance falls, until it reaches zero. */
  lemma WarningDownwardClosed(balance: nat, lower: nat)
    requires WarnDeposit(true, false, Some(balance))
    requires 0 < lower <= balance
    ensures WarnDeposit(true, false, Some(lower))
  {
  }

  /** Balances of 350, 0 and 500 SQT, in an open and loaded dropdown. */
  lemma WarningExamples()
    ensures WarnDeposit(true, false, Some(350 * Sqt))
    ensures !WarnDeposit(true, false, Some(0))
    ensures !WarnDeposit(true, false, Some(500 * Sqt))
  {
  }

  /** A closed dropdown renders no entries. */
  lemma ClosedMenuEmpty(loading: bool, balance: Option<nat>)
    ensures Rendered(false, loading, balance) == []
  {
  }

  /** An open dropdown renders the seven entries with their keys in order, each
      key once. */
  lemma OpenMenuKeys(loading: bool, balance: Option<nat>)
    ensures var items := Rendered(true, loading, balance);
      && |items| == |MenuKeys| == 7
      && (forall i :: 0 <= i < |items| ==> items[i].key == MenuKeys[i])
      && (forall i, j :: 0 <= i < j < |MenuKeys| ==> MenuKeys[i] != MenuKeys[j])
  {
  }

  /** The warning is rendered in the billing-balance entry and nowhere else,
      and it is rendered there exactly when the low-balance predicate holds. */
  lemma WarningPlacement(open: bool, loading: bool, balance: Option<nat>)
    ensures var items := Rendered(open, loading, balance);
      && (forall i :: 0 <= i < |items| && items[i].warning ==> items[i].key == "billingBalance")
      && (WarnDeposit(open, loading, balance) <==> exists i :: 0 <= i < |items| && items[i].warning)
  {
    var items := Rendered(open, loading, balance);
    if WarnDeposit(open, loading, balance) {
      assert items[3].warning;
    }
  }
}

=== FILE: basics.dfy ===
/** Small shared vocabulary: optional values and the fixed token scale. */
module Basics {

  /** A value that may be absent (`undefined` in the wizard's hooks and forms). */
  datatype Option<+T> = None | Some(value: T)

  /** An optional number read with `|| 0` (or `|| '0'`): absent counts as zero. */
  function OrZero(x: Option<nat>): nat
  {
    if x.Some? then x.value else 0
  }

  /** One SQT in base units: SQT has 18 decimals, and every token amount in this
      model is a natural number of base units. */
  const Sqt: nat := 1_000_000_000_000_000_000
}

=== FILE: billing_world.dfy ===
/** The two systems of record the confirm pipeline drives, as one abstract state:
    the SQT ledger (wallet balance, the allowance granted to the billing
    contract, the billing-account balance) and the billing service (the
    account's API-key names and hosting plans). Every call returns an explicit
    outcome, is appended to the world's log, and fails when its kind is listed
    in `faults` (a rejected signature, a network error, a service-level error
    result), with the listed message. */
module BillingWorld {
  import opened Basics

  datatype CallKind = ApproveKind | DepositKind | ListKeysKind | CreateKeyKind | CreatePlanKind | UpdatePlanKind

  /** The body of a create or update hosting-plan request. */
  datatype PlanParams = PlanParams(deploymentId: string, price: nat, maximum: nat, expiration: nat, id: nat)

  datatype Call =
    | Approve(amount: nat)
    | Deposit(amount: nat)
    | ListKeys
    | CreateKey(name: string)
    | CreatePlan(params: PlanParams)
    | UpdatePlan(params: PlanParams)
  {
    /** Every call except listing the keys changes a system of record. */
    predicate Mutating()
    {
      !ListKeys?
    }
  }

  /** A logged call and whether it succeeded. */
  datatype Entry = Entry(call: Call, ok: bool)

  datatype Outcome = Ok | Err(msg: string)

  datatype World = World(
    wallet: nat,
    allowance: nat,
    billing: nat,
    keys: seq<string>,
    plans: map<nat, PlanParams>,
    faults: map<CallKind, string>,
    log: seq<Entry>)

  datatype Reply = Reply(outcome: Outcome, world: World)

  /** The result of listing the account's API keys: names, or an error object
      that the service returns instead of throwing. */
  datatype KeyListing = Keys(names: seq<string>) | ListingError(msg: string)

  datatype ListingReply = ListingReply(listing: KeyListing, world: World)

  const InsufficientAllowance: string := "ERC20: insufficient allowance"
  const InsufficientBalance: string := "ERC20: transfer amount exceeds balance"

  function Logged(w: World, c: Call, ok: bool): World
  {
    w.(log := w.log + [Entry(c, ok)])
  }

  /** ERC-20 `approve` of the billing contract: the allowance becomes `amount`. */
  function ApproveTx(w: World, amount: nat): (r: Reply)
    ensures r.world.log == w.log + [Entry(Approve(amount), r.outcome.Ok?)]
    ensures r.outcome.Ok? <==> ApproveKind !in w.faults
    ensures r.outcome.Ok? ==> r.world == w.(allowance := amount, log := r.world.log)
    ensures r.outcome.Err? ==> r.world == w.(log := r.world.log)
  {
    if ApproveKind in w.faults then Reply(Err(w.faults[ApproveKind]), Logged(w, Approve(amount), false))
    else Reply(Ok, Logged(w.(allowance := amount), Approve(amount), true))
  }

  /** The billing contract's `deposit`: pulls `amount` from the wallet through
      the allowance into the billing account, or reverts. */
  function DepositTx(w: World, amount: nat): (r: Reply)
    ensures r.world.log == w.log + [Entry(Deposit(amount), r.outcome.Ok?)]
    ensures r.outcome.Ok? <==> DepositKind !in w.faults && amount <= w.allowance && amount <= w.wallet
    ensures r.outcome.Ok? ==> r.world == w.(wallet := w.wallet - amount, allowance := w.allowance - amount,
                                            billing := w.billing + amount, log := r.world.log)
    ensures r.outcome.Err? ==> r.world == w.(log := r.world.log)
    ensures DepositKind !in w.faults && w.allowance < amount ==> r.outcome == Err(InsufficientAllowance)
  {
    if DepositKind in w.faults then Reply(Err(w.faults[DepositKind]), Logged(w, Deposit(amount), false))
    else if w.allowance < amount then Reply(Err(InsufficientAllowance), Logged(w, Deposit(amount), false))
    else if w.wallet < amount then Reply(Err(InsufficientBalance), Logged(w, Deposit(amount), false))
    else
      var w' := w.(wallet := w.wallet - amount, allowance := w.allowance - amount, billing := w.billing + amount);
      Reply(Ok, Logged(w', Deposit(amount), true))
  }

  /** Lists the account's API-key names; a failure comes back as an error object. */
  function ListApiKeys(w: World): (r: ListingReply)
    ensures r.world == w.(log := w.log + [Entry(ListKeys, r.listing.Keys?)])
    ensures r.listing.Keys? <==> ListKeysKind !in w.faults
    ensures r.listing.Keys? ==> r.listing.names == w.keys
  {
    if ListKeysKind in w.faults then ListingReply(ListingError(w.faults[ListKeysKind]), Logged(w, ListKeys, false))
    else ListingReply(Keys(w.keys), Logged(w, ListKeys, true))
  }

  /** Creates an API key with the given name. */
  function CreateApiKey(w: World, name: string): (r: Reply)
    ensures r.world.log == w.log + [Entry(CreateKey(name), r.outcome.Ok?)]
    ensures r.outcome.Ok? <==> CreateKeyKind !in w.faults
    ensures r.outcome.Ok? ==> r.world == w.(keys := w.keys + [name], log := r.world.log)
    ensures r.outcome.Err? ==> r.world == w.(log := r.world.log)
  {
    if CreateKeyKind in w.faults then Reply(Err(w.faults[CreateKeyKind]), Logged(w, CreateKey(name), false))
    else Reply(Ok, Logged(w.(keys := w.keys + [name]), CreateKey(name), true))
  }

  /** A finite set of ids has a largest member. */
  lemma {:induction false} LargestIdExists(ids: set<nat>)
    requires ids != {}
    ensures exists m :: m in ids && forall y :: y in ids ==> y <= m
    decreases ids
  {
    var x :| x in ids;
    var rest := ids - {x};
    assert forall y :: y in ids ==> y == x || y in rest;
    if rest != {} {
      LargestIdExists(rest);
      var m :| m in rest && forall y :: y in rest ==> y <= m;
      assert m in ids;
      if m < x {
        assert forall y :: y in ids ==> y <= x;
      } else {
        assert forall y :: y in ids ==> y <= m;
      }
    }
  }

  /** The id the service gives a new plan: one above every id it has assigned,
      so never one already in use. */
  function NewPlanId(plans: map<nat, PlanParams>): (id: nat)
    ensures forall k :: k in plans ==> k < id
  {
    if plans == map[] then 1
    else
      assert plans.Keys != {} by {
        var k :| k in plans;
        assert k in plans.Keys;
      }
      LargestIdExists(plans.Keys);
      var m :| m in plans.Keys && forall y :: y in plans.Keys ==> y <= m;
      m + 1
  }

  /** Creates a hosting plan under an id the service assigns. */
  function CreateHostingPlan(w: World, params: PlanParams): (r: Reply)
    ensures r.world.log == w.log + [Entry(CreatePlan(params), r.outcome.Ok?)]
    ensures r.outcome.Ok? <==> CreatePlanKind !in w.faults
    ensures r.world.keys == w.keys && r.world.faults == w.faults
    ensures r.outcome.Err? ==> r.world == w.(log := r.world.log)
    ensures r.outcome.Ok? ==> r.world == w.(plans := r.world.plans, log := r.world.log)
    ensures r.outcome.Ok? ==>
      && |r.world.plans| == |w.plans| + 1
      && (forall k :: k in w.plans ==> k in r.world.plans && r.world.plans[k] == w.plans[k])
      && (exists id :: id !in w.plans && id in r.world.plans && r.world.plans[id] == params.(id := id))
  {
    if CreatePlanKind in w.faults then Reply(Err(w.faults[CreatePlanKind]), Logged(w, CreatePlan(params), false))
    else
      var id := NewPlanId(w.plans);
      var w' := w.(plans := w.plans[id := params.(id := id)]);
      assert id !in w.plans;
      Reply(Ok, Logged(w', CreatePlan(params), true))
  }

  /** Updates the hosting plan whose id the request carries. */
  function UpdateHostingPlan(w: World, params: PlanParams): (r: Reply)
    ensures r.world.log == w.log + [Entry(UpdatePlan(params), r.outcome.Ok?)]
    ensures r.outcome.Ok? <==> UpdatePlanKind !in w.faults
    ensures r.world.keys == w.keys && r.world.faults == w.faults
    ensures r.outcome.Err? ==> r.world == w.(log := r.world.log)
    ensures r.outcome.Ok? ==> r.world == w.(plans := r.world.plans, log := r.world.log)
    ensures r.outcome.Ok? ==> r.world.plans == w.plans[params.id := params]
  {
    if UpdatePlanKind in w.faults then Reply(Err(w.faults[UpdatePlanKind]), Logged(w, UpdatePlan(params), false))
    else Reply(Ok, Logged(w.(plans := w.plans[params.id := params]), UpdatePlan(params), true))
  }
}

=== FILE: confirm_pipeline.dfy ===
/** The confirm handler of the wizard's last step (lines 185-243 of
    CreateFlexPlan): four stages run in a fixed order (allowance, deposit, API
    key, hosting plan), each gated by a flag memoised at the last render, and
    the first failure abandons the rest. The handler reads a snapshot of the
    render it was created in and advances the world, the refetched caches, the
    deposit field and the order of the offer sample. */
module ConfirmPipeline {
  import opened Basics
  import opened Offers
  import opened FlexPlanValues
  import opened BillingWorld

  /** The API-key name the wizard creates and looks for. Its value is defined
      by GetEndpoint, which is not part of this model; only its identity matters. */
  const SpecialApiKeyName: string := "specialApiKeyName"

  /** The expiration used when no offer states a duration: seven days in seconds. */
  const DefaultExpiration: nat := 3600 * 24 * 7

  /** `parseEther` of the text "undefined" (no price entered). */
  const PriceParseError: string := "invalid decimal value"

  /** Reading `max_time` of the first element of an empty sorted sample. */
  const EmptySampleError: string := "Cannot read properties of undefined (reading 'max_time')"

  /** What the handler closes over when the user clicks: the props, the
      contracts handle, the flags' inputs as of the last render, and the plan
      form's price and (whole) provider limit. */
  datatype Snapshot = Snapshot(
    deploymentId: string,
    prevApiKey: bool,
    prevPlanId: Option<nat>,
    contractsLoaded: bool,
    allowanceSeen: Option<nat>,
    amount: Option<nat>,
    price: PriceField,
    maximum: nat)

  /** What the handler changes: the world, the refetched allowance and billing
      balance, the deposit field, and the offer sample (sorted in place). */
  datatype Progress = Progress(
    world: World,
    allowanceSeen: Option<nat>,
    balanceSeen: Option<nat>,
    amount: Option<nat>,
    offers: Option<seq<Offer>>)

  datatype Run = Run(outcome: Outcome, progress: Progress)

  // ---------------------------------------------------------------------------
  // Shape of the call log

  function Kind(c: Call): CallKind
  {
    match c
    case Approve(_) => ApproveKind
    case Deposit(_) => DepositKind
    case ListKeys => ListKeysKind
    case CreateKey(_) => CreateKeyKind
    case CreatePlan(_) => CreatePlanKind
    case UpdatePlan(_) => UpdatePlanKind
  }

  /** Position of each kind of call in the pipeline. */
  function KindRank(k: CallKind): nat
  {
    match k
    case ApproveKind => 0
    case DepositKind => 1
    case ListKeysKind => 2
    case CreateKeyKind => 3
    case CreatePlanKind => 4
    case UpdatePlanKind => 4
  }

  function Rank(c: Call): nat
  {
    KindRank(Kind(c))
  }

  /** `after` extends `before` with calls of ranks lo..hi, in strictly increasing rank. */
  predicate Appended(before: seq<Entry>, after: seq<Entry>, lo: nat, hi: nat)
  {
    && before <= after
    && (forall k :: |before| <= k < |after| ==> lo <= Rank(after[k].call) <= hi)
    && (forall i, j :: |before| <= i < j < |after| ==> Rank(after[i].call) < Rank(after[j].call))
  }

  /** Every call added succeeded, except possibly the key listing, whose error
      the pipeline tolerates. */
  predicate Clean(before: seq<Entry>, after: seq<Entry>)
    requires before <= after
  {
    forall k :: |before| <= k < |after| ==> after[k].ok || after[k].call.ListKeys?
  }

  /** The run stopped: either its last call is a failed mutating call and all
      earlier added calls are clean, or it failed locally with no failed call. */
  predicate Aborted(before: seq<Entry>, after: seq<Entry>, outcome: Outcome)
    requires before <= after
  {
    || (&& |before| < |after|
        && !after[|after| - 1].ok
        && after[|after| - 1].call.Mutating()
        && Clean(before, after[..|after| - 1]))
    || ((outcome == Err(PriceParseError) || outcome == Err(EmptySampleError)) && Clean(before, after))
  }

  /** What every stage, and the pipeline as a whole, guarantees about the log. */
  predicate StageContract(p: Progress, r: Run, lo: nat, hi: nat)
  {
    && Appended(p.world.log, r.progress.world.log, lo, hi)
    && r.progress.world.faults == p.world.faults
    && (r.outcome.Ok? ==> Clean(p.world.log, r.progress.world.log))
    && (r.outcome.Err? ==> Aborted(p.world.log, r.progress.world.log, r.outcome))
  }

  /** A successful stage followed by a later-ranked stage behaves as one stage. */
  lemma StageChain(p: Progress, r1: Run, r2: Run, lo1: nat, hi1: nat, lo2: nat, hi2: nat)
    requires StageContract(p, r1, lo1, hi1) && r1.outcome.Ok?
    requires StageContract(r1.progress, r2, lo2, hi2) && lo1 <= hi1 < lo2 <= hi2
    ensures StageContract(p, r2, lo1, hi2)
  {
    var a, b, c := p.world.log, r1.progress.world.log, r2.progress.world.log;
    assert a <= c by {
      assert c[..|a|] == b[..|a|];
    }
    forall k | |a| <= k < |c|
      ensures lo1 <= Rank(c[k].call) <= hi2
      ensures c[k].ok || c[k].call.ListKeys? || |b| <= k
    {
      if k < |b| {
        assert c[k] == b[k];
      }
    }
    forall i, j | |a| <= i < j < |c| ensures Rank(c[i].call) < Rank(c[j].call) {
      if i < |b| {
        assert c[i] == b[i];
        if j < |b| {
          assert c[j] == b[j];
        }
      }
    }
  }

  /** A stage that makes one call, and whose outcome is that call's. */
  lemma OneCall(p: Progress, r: Run, e: Entry)
    requires r.progress.world.log == p.world.log + [e] && r.progress.world.faults == p.world.faults
    requires e.call.Mutating() && (e.ok <==> r.outcome.Ok?)
    ensures StageContract(p, r, Rank(e.call), Rank(e.call))
  {
    assert r.progress.world.log[..|r.progress.world.log| - 1] == p.world.log;
  }

  /** A stage that lists the keys and then makes one mutating call, whose
      outcome is the stage's. */
  lemma ListingThenCall(p: Progress, r: Run, e: Entry)
    requires r.progress.world.log == p.world.log + [Entry(ListKeys, true), e]
    requires r.progress.world.faults == p.world.faults
    requires e.call.Mutating() && Rank(e.call) > 2 && (e.ok <==> r.outcome.Ok?)
    ensures StageContract(p, r, 2, Rank(e.call))
  {
    assert r.progress.world.log[..|r.progress.world.log| - 1] == p.world.log + [Entry(ListKeys, true)];
  }

  /** A stage that only lists the keys, and succeeds whatever the listing says. */
  lemma ListingOnly(p: Progress, r: Run, ok: bool)
    requires r.progress.world.log == p.world.log + [Entry(ListKeys, ok)]
    requires r.progress.world.faults == p.world.faults && r.outcome.Ok?
    ensures StageContract(p, r, 2, 3)
  {
  }

  // ---------------------------------------------------------------------------
  // The four stages

  /** Lines 188-191: when the cached allowance is below the amount, approve the
      billing contract for exactly the amount and refetch the allowance; nothing
      else is touched. */
  function ApprovalStage(s: Snapshot, p: Progress): (r: Run)
    ensures StageContract(p, r, 0, 0)
    ensures r.progress.world.log == p.world.log +
      (if NeedAddAllowance(s.allowanceSeen, s.amount) then [Entry(Approve(OrZero(s.amount)), r.outcome.Ok?)] else [])
    ensures r.outcome.Err? <==> NeedAddAllowance(s.allowanceSeen, s.amount) && ApproveKind in p.world.faults
    ensures r.outcome.Ok? && NeedAddAllowance(s.allowanceSeen, s.amount) ==>
      r.progress.world.allowance == OrZero(s.amount) && r.progress.allowanceSeen == Some(OrZero(s.amount))
    ensures !NeedAddAllowance(s.allowanceSeen, s.amount) ==> r == Run(Ok, p)
    ensures r.progress == p.(world := r.progress.world, allowanceSeen := r.progress.allowanceSeen)
    ensures r.progress.world == p.world.(allowance := r.progress.world.allowance, log := r.progress.world.log)
  {
    if !NeedAddAllowance(s.allowanceSeen, s.amount) then Run(Ok, p)
    else
      var reply := ApproveTx(p.world, OrZero(s.amount));
      var r := if reply.outcome.Err? then Run(reply.outcome, p.(world := reply.world))
               else Run(Ok, p.(world := reply.world, allowanceSeen := Some(reply.world.allowance)));
      OneCall(p, r, Entry(Approve(OrZero(s.amount)), reply.outcome.Ok?));
      r
  }

  /** Lines 193-198: when the amount is non-zero, deposit exactly the amount
      (no transaction when the contracts are not loaded), refetch the billing
      balance and reset the amount field to 0. */
  function DepositStage(s: Snapshot, p: Progress): (r: Run)
    ensures StageContract(p, r, 1, 1)
    ensures r.progress.world.log == p.world.log +
      (if NeedDepositMore(s.amount) && s.contractsLoaded then [Entry(Deposit(OrZero(s.amount)), r.outcome.Ok?)] else [])
    ensures r.outcome.Ok? && NeedDepositMore(s.amount) ==>
      r.progress.amount == Some(0) && r.progress.balanceSeen == Some(r.progress.world.billing)
    ensures r.outcome.Ok? && NeedDepositMore(s.amount) && s.contractsLoaded ==>
      r.progress.world.billing == p.world.billing + OrZero(s.amount)
    ensures r.outcome.Ok? && NeedDepositMore(s.amount) && s.contractsLoaded ==>
      r.progress.world.wallet == p.world.wallet - OrZero(s.amount) &&
      r.progress.world.allowance == p.world.allowance - OrZero(s.amount)
    ensures !(r.outcome.Ok? && NeedDepositMore(s.amount) && s.contractsLoaded) ==>
      r.progress.world == p.world.(log := r.progress.world.log)
    ensures !NeedDepositMore(s.amount) ==> r == Run(Ok, p)
    ensures r.progress == p.(world := r.progress.world, balanceSeen := r.progress.balanceSeen, amount := r.progress.amount)
    ensures r.progress.world == p.world.(wallet := r.progress.world.wallet, allowance := r.progress.world.allowance,
                                         billing := r.progress.world.billing, log := r.progress.world.log)
  {
    if !NeedDepositMore(s.amount) then Run(Ok, p)
    else if !s.contractsLoaded then Run(Ok, p.(balanceSeen := Some(p.world.billing), amount := Some(0)))
    else
      var reply := DepositTx(p.world, OrZero(s.amount));
      var r := if reply.outcome.Err? then Run(reply.outcome, p.(world := reply.world))
               else Run(Ok, p.(world := reply.world, balanceSeen := Some(reply.world.billing), amount := Some(0)));
      OneCall(p, r, Entry(Deposit(OrZero(s.amount)), reply.outcome.Ok?));
      r
  }

  /** Lines 200-215: without a key at mount, list the keys and create the
      wizard's key unless the listing is an error or already has that name;
      afterwards a successful listing implies the key exists. */
  function ApiKeyStage(s: Snapshot, p: Progress): (r: Run)
    ensures StageContract(p, r, 2, 3)
    ensures r.progress.world.log == p.world.log +
      (if !NeedCreateApiKey(s.prevApiKey) then []
       else ([Entry(ListKeys, ListKeysKind !in p.world.faults)] +
             (if ListKeysKind !in p.world.faults && SpecialApiKeyName !in p.world.keys
              then [Entry(CreateKey(SpecialApiKeyName), r.outcome.Ok?)] else [])))
    ensures r.outcome.Ok? && NeedCreateApiKey(s.prevApiKey) && ListKeysKind !in p.world.faults ==>
      SpecialApiKeyName in r.progress.world.keys
    ensures p.world.keys <= r.progress.world.keys
    ensures r.progress == p.(world := r.progress.world)
    ensures r.progress.world == p.world.(keys := r.progress.world.keys, log := r.progress.world.log)
  {
    if !NeedCreateApiKey(s.prevApiKey) then Run(Ok, p)
    else
      var listed := ListApiKeys(p.world);
      if listed.listing.ListingError? || SpecialApiKeyName in listed.listing.names then
        var r := Run(Ok, p.(world := listed.world));
        ListingOnly(p, r, listed.listing.Keys?);
        r
      else
        var reply := CreateApiKey(listed.world, SpecialApiKeyName);
        var r := Run(reply.outcome, p.(world := reply.world));
        ListingThenCall(p, r, Entry(CreateKey(SpecialApiKeyName), reply.outcome.Ok?));
        r
  }

  /** The longest duration in the sample as line 226 reads it: the first offer
      after the descending sort, or seven days when the sample is absent or that
      duration is zero. */
  function PlanExpiration(sorted: Option<seq<Offer>>): (e: nat)
    requires sorted != Some([])
    ensures e > 0
    ensures sorted.None? ==> e == DefaultExpiration
  {
    var longest := if sorted.Some? then sorted.value[0].maxTime else 0;
    if longest == 0 then DefaultExpiration else longest
  }

  /** Lines 220-228: the request body, sent as an update of the previous plan
      when there is one and as a new plan otherwise. */
  function PlanCall(s: Snapshot, sorted: Option<seq<Offer>>): (c: Call)
    requires sorted != Some([])
    ensures Rank(c) == 4
  {
    var params := PlanParams(
      s.deploymentId,
      PriceValue(s.price) / 1000,
      s.maximum,
      PlanExpiration(sorted),
      if s.prevPlanId.Some? then s.prevPlanId.value else 0);
    if s.prevPlanId.Some? then UpdatePlan(params) else CreatePlan(params)
  }

  function SubmitPlan(w: World, c: Call): (r: Reply)
    requires Rank(c) == 4
    ensures r.world.log == w.log + [Entry(c, r.outcome.Ok?)]
    ensures r.outcome.Ok? <==> Kind(c) !in w.faults
    ensures r.world == w.(plans := r.world.plans, log := r.world.log)
    ensures r.outcome.Err? ==> r.world.plans == w.plans
  {
    if c.UpdatePlan? then UpdateHostingPlan(w, c.params) else CreateHostingPlan(w, c.params)
  }

  /** The sample after the in-place sort of line 226. */
  function SortedSample(offers: Option<seq<Offer>>): (sorted: Option<seq<Offer>>)
    ensures sorted.Some? <==> offers.Some?
    ensures offers.Some? ==> multiset(sorted.value) == multiset(offers.value) && |sorted.value| == |offers.value|
  {
    if offers.Some? then Some(SortByMaxTime(offers.value)) else None
  }

  /** Lines 217-233: parse the price (an unset price throws), sort the sample by
      `max_time` descending in place (an empty sample then throws), and send the
      plan request. */
  function PlanStage(s: Snapshot, p: Progress): (r: Run)
    ensures StageContract(p, r, 4, 4)
    ensures s.price.Unset? ==> r == Run(Err(PriceParseError), p)
    ensures s.price != Unset && p.offers == Some([]) ==> r == Run(Err(EmptySampleError), p)
    ensures s.price != Unset && p.offers != Some([]) ==>
      r.progress.world.log == p.world.log + [Entry(PlanCall(s, SortedSample(p.offers)), r.outcome.Ok?)]
    ensures r.progress == p.(world := r.progress.world, offers := r.progress.offers)
    ensures r.progress.world == p.world.(plans := r.progress.world.plans, log := r.progress.world.log)
    ensures s.price != Unset ==> r.progress.offers == SortedSample(p.offers)
  {
    if s.price.Unset? then Run(Err(PriceParseError), p)
    else
      var sorted := SortedSample(p.offers);
      if sorted == Some([]) then Run(Err(EmptySampleError), p.(offers := sorted))
      else
        var reply := SubmitPlan(p.world, PlanCall(s, sorted));
        var r := Run(reply.outcome, p.(world := reply.world, offers := sorted));
        OneCall(p, r, Entry(PlanCall(s, sorted), reply.outcome.Ok?));
        r
  }

  /** The handler from the API-key stage on. */
  function FromApiKey(s: Snapshot, p: Progress): (r: Run)
    ensures StageContract(p, r, 2, 4)
  {
    var r3 := ApiKeyStage(s, p);
    if r3.outcome.Err? then r3
    else
      var r4 := PlanStage(s, r3.progress);
      StageChain(p, r3, r4, 2, 3, 4, 4);
      r4
  }

  /** The handler from the deposit stage on. */
  function FromDeposit(s: Snapshot, p: Progress): (r: Run)
    ensures StageContract(p, r, 1, 4)
  {
    var r2 := DepositStage(s, p);
    if r2.outcome.Err? then r2
    else
      var r := FromApiKey(s, r2.progress);
      StageChain(p, r2, r, 1, 1, 2, 4);
      r
  }

  /** The whole handler: the stages in order, stopping at the first error. The
      calls it makes come in pipeline order, every call before the last one
      succeeded (the tolerated key listing aside), and a successful run ends
      with a successful plan call. */
  function Confirm(s: Snapshot, p: Progress): (r: Run)
    ensures StageContract(p, r, 0, 4)
    ensures r.outcome.Ok? ==>
      && |p.world.log| < |r.progress.world.log|
      && r.progress.world.log[|r.progress.world.log| - 1].ok
      && Rank(r.progress.world.log[|r.progress.world.log| - 1].call) == 4
  {
    var r1 := ApprovalStage(s, p);
    if r1.outcome.Err? then r1
    else
      var r := FromDeposit(s, r1.progress);
      StageChain(p, r1, r, 0, 0, 1, 4);
      r
  }
}

=== FILE: confirm_properties.dfy ===
/** What the confirm handler guarantees across its stages: which calls it may
    make and with what arguments, when it stops, what a cached allowance that
    is stale or fresh leads to, what the plan request carries, and what a
    second click after a successful run does. */
module ConfirmProperties {
  import opened Basics
  import opened Offers
  import opened PriceEstimator
  import opened FlexPlanValues
  import opened BillingWorld
  import opened ConfirmPipeline

  /** The call that the stage owning `c` would make for this snapshot and
      starting state, under the stage's own gate. */
  predicate Prescribed(s: Snapshot, p: Progress, c: Call)
  {
    match c
    case Approve(x) => NeedAddAllowance(s.allowanceSeen, s.amount) && x == OrZero(s.amount)
    case Deposit(x) => NeedDepositMore(s.amount) && s.contractsLoaded && x == OrZero(s.amount)
    case ListKeys => NeedCreateApiKey(s.prevApiKey)
    case CreateKey(name) =>
      && NeedCreateApiKey(s.prevApiKey) && name == SpecialApiKeyName
      && ListKeysKind !in p.world.faults && SpecialApiKeyName !in p.world.keys
    case CreatePlan(_) => s.price != Unset && p.offers != Some([]) && c == PlanCall(s, SortedSample(p.offers))
    case UpdatePlan(_) => s.price != Unset && p.offers != Some([]) && c == PlanCall(s, SortedSample(p.offers))
  }

  predicate AllPrescribed(s: Snapshot, p: Progress, before: seq<Entry>, after: seq<Entry>)
  {
    forall i :: |before| <= i < |after| ==> Prescribed(s, p, after[i].call)
  }

  /** Some call of the given kind was added to the log. */
  predicate MadeKind(before: seq<Entry>, after: seq<Entry>, k: CallKind)
  {
    exists i :: |before| <= i < |after| && Kind(after[i].call) == k
  }

  /** This exact entry was added to the log. */
  predicate Added(before: seq<Entry>, after: seq<Entry>, e: Entry)
  {
    exists i :: |before| <= i < |after| && after[i] == e
  }

  lemma PrescribedAppend(s: Snapshot, p: Progress, a: seq<Entry>, b: seq<Entry>, es: seq<Entry>)
    requires |a| <= |b| && AllPrescribed(s, p, a, b)
    requires forall e :: e in es ==> Prescribed(s, p, e.call)
    ensures AllPrescribed(s, p, a, b + es)
  {
    forall i | |a| <= i < |b + es| ensures Prescribed(s, p, (b + es)[i].call) {
      if i >= |b| {
        assert (b + es)[i] in es;
      }
    }
  }

  lemma PrescribedExtend(s: Snapshot, p: Progress, a: seq<Entry>, b: seq<Entry>, c: seq<Entry>)
    requires a <= b && AllPrescribed(s, p, a, b)
    requires b <= c && AllPrescribed(s, p, b, c)
    ensures AllPrescribed(s, p, a, c)
  {
    forall i | |a| <= i < |c| ensures Prescribed(s, p, c[i].call) {
      if i < |b| {
        assert c[i] == b[i];
      }
    }
  }

  lemma ApprovalStagePrescribed(s: Snapshot, p: Progress)
    ensures AllPrescribed(s, p, p.world.log, ApprovalStage(s, p).progress.world.log)
  {
    var r := ApprovalStage(s, p);
    var es := r.progress.world.log[|p.world.log|..];
    assert p.world.log + es == r.progress.world.log;
    PrescribedAppend(s, p, p.world.log, p.world.log, es);
  }

  lemma DepositStagePrescribed(s: Snapshot, p0: Progress, p: Progress)
    ensures AllPrescribed(s, p0, p.world.log, DepositStage(s, p).progress.world.log)
  {
    var r := DepositStage(s, p);
    var es := r.progress.world.log[|p.world.log|..];
    assert p.world.log + es == r.progress.world.log;
    PrescribedAppend(s, p0, p.world.log, p.world.log, es);
  }

  lemma ApiKeyStagePrescribed(s: Snapshot, p0: Progress, p: Progress)
    requires p.world.keys == p0.world.keys && p.world.faults == p0.world.faults
    ensures AllPrescribed(s, p0, p.world.log, ApiKeyStage(s, p).progress.world.log)
  {
    var log := ApiKeyStage(s, p).progress.world.log;
    var n := |p.world.log|;
    forall i | n <= i < |log| ensures Prescribed(s, p0, log[i].call) {
      if i == n {
        assert log[i].call == ListKeys;
      } else {
        assert i == n + 1 && ListKeysKind !in p.world.faults && SpecialApiKeyName !in p.world.keys;
        assert log[i].call == CreateKey(SpecialApiKeyName);
      }
    }
  }

  lemma PlanStagePrescribed(s: Snapshot, p0: Progress, p: Progress)
    requires p.offers == p0.offers
    ensures AllPrescribed(s, p0, p.world.log, PlanStage(s, p).progress.world.log)
  {
    var r := PlanStage(s, p);
    var es := r.progress.world.log[|p.world.log|..];
    assert p.world.log + es == r.progress.world.log;
    PrescribedAppend(s, p0, p.world.log, p.world.log, es);
  }

  /** Every call the handler makes is the one its stage prescribes: an approval
      of exactly the deposit amount only when the cached allowance is below it,
      a deposit of exactly the amount only when it is non-zero and the
      contracts are loaded, a key listing only without a key at mount, a key
      creation only under the wizard's name and only when a successful listing
      lacked that name, and a plan request only with a price and a non-empty or
      absent sample, carrying the parameters of PlanCall. */
  lemma ConfirmMakesOnlyPrescribedCalls(s: Snapshot, p: Progress)
    ensures AllPrescribed(s, p, p.world.log, Confirm(s, p).progress.world.log)
  {
    var r1 := ApprovalStage(s, p);
    ApprovalStagePrescribed(s, p);
    if r1.outcome.Ok? {
      var r2 := DepositStage(s, r1.progress);
      DepositStagePrescribed(s, p, r1.progress);
      PrescribedExtend(s, p, p.world.log, r1.progress.world.log, r2.progress.world.log);
      assert Confirm(s, p) == FromDeposit(s, r1.progress);
      if r2.outcome.Ok? {
        var r3 := ApiKeyStage(s, r2.progress);
        ApiKeyStagePrescribed(s, p, r2.progress);
        PrescribedExtend(s, p, p.world.log, r2.progress.world.log, r3.progress.world.log);
        assert Confirm(s, p) == FromApiKey(s, r2.progress);
        if r3.outcome.Ok? {
          var r4 := PlanStage(s, r3.progress);
          PlanStagePrescribed(s, p, r3.progress);
          PrescribedExtend(s, p, p.world.log, r3.progress.world.log, r4.progress.world.log);
          assert Confirm(s, p) == r4;
        }
      }
    }
  }

  /** A successful run went through every stage successfully. */
  lemma SuccessfulRunStages(s: Snapshot, p: Progress)
    requires Confirm(s, p).outcome.Ok?
    ensures var t1 := ApprovalStage(s, p);
      var t2 := DepositStage(s, t1.progress);
      var t3 := ApiKeyStage(s, t2.progress);
      && t1.outcome.Ok? && t2.outcome.Ok? && t3.outcome.Ok?
      && Confirm(s, p) == PlanStage(s, t3.progress)
  {
    var t1 := ApprovalStage(s, p);
    assert t1.outcome.Ok?;
    var t2 := DepositStage(s, t1.progress);
    assert Confirm(s, p) == FromDeposit(s, t1.progress);
    assert t2.outcome.Ok?;
    assert Confirm(s, p) == FromApiKey(s, t2.progress);
  }

  /** The approval is made exactly when the cached allowance is below the amount. */
  lemma ApprovalMadeIffNeeded(s: Snapshot, p: Progress)
    ensures MadeKind(p.world.log, Confirm(s, p).progress.world.log, ApproveKind)
        <==> OrZero(s.allowanceSeen) < OrZero(s.amount)
  {
    var a := p.world.log;
    var r := Confirm(s, p);
    var r1 := ApprovalStage(s, p);
    if NeedAddAllowance(s.allowanceSeen, s.amount) {
      assert r1.progress.world.log[|a|].call == Approve(OrZero(s.amount));
      if r1.outcome.Ok? {
        assert r == FromDeposit(s, r1.progress);
        assert r.progress.world.log[|a|] == r1.progress.world.log[|a|];
      }
      assert Kind(r.progress.world.log[|a|].call) == ApproveKind;
    } else {
      assert r == FromDeposit(s, p);
      forall i | |a| <= i < |r.progress.world.log| ensures Kind(r.progress.world.log[i].call) != ApproveKind {
        assert Rank(r.progress.world.log[i].call) >= 1;
      }
    }
  }

  /** Once the approval (if any) has gone through, a non-zero amount is
      deposited whenever the contracts are loaded. */
  lemma DepositMadeWhenReached(s: Snapshot, p: Progress)
    requires !NeedAddAllowance(s.allowanceSeen, s.amount) || ApproveKind !in p.world.faults
    requires OrZero(s.amount) > 0 && s.contractsLoaded
    ensures MadeKind(p.world.log, Confirm(s, p).progress.world.log, DepositKind)
  {
    var r1 := ApprovalStage(s, p);
    var r2 := DepositStage(s, r1.progress);
    var b := r1.progress.world.log;
    var r := Confirm(s, p);
    assert r2.progress.world.log[|b|].call == Deposit(OrZero(s.amount));
    if r2.outcome.Ok? {
      assert r.progress.world.log[|b|] == r2.progress.world.log[|b|];
    }
  }

  /** A failed approval (the user rejects it, say) stops the handler: the
      failed approval is the only call, its error is the outcome, and the
      deposit field keeps its amount. */
  lemma ApprovalFailureStopsEverything(s: Snapshot, p: Progress)
    requires NeedAddAllowance(s.allowanceSeen, s.amount) && ApproveKind in p.world.faults
    ensures Confirm(s, p).outcome == Err(p.world.faults[ApproveKind])
    ensures Confirm(s, p).progress.world.log == p.world.log + [Entry(Approve(OrZero(s.amount)), false)]
    ensures Confirm(s, p).progress.amount == p.amount
  {
  }

  /** The flags are read from the last render: when the cached allowance still
      covers the amount but the live allowance no longer does, no approval is
      made and the deposit reverts for lack of allowance, ending the run. */
  lemma StaleAllowanceRejectsDeposit(s: Snapshot, p: Progress)
    requires OrZero(s.amount) > 0 && s.contractsLoaded && DepositKind !in p.world.faults
    requires p.world.allowance < OrZero(s.amount) <= OrZero(s.allowanceSeen)
    ensures Confirm(s, p).outcome == Err(InsufficientAllowance)
    ensures Confirm(s, p).progress.world.log == p.world.log + [Entry(Deposit(OrZero(s.amount)), false)]
  {
  }

  /** With a cached allowance equal to the live one, the deposit is never
      refused for lack of allowance: given no faults and enough in the wallet,
      it succeeds and lands in the billing account. */
  lemma FreshAllowanceDepositSucceeds(s: Snapshot, p: Progress)
    requires s.allowanceSeen == Some(p.world.allowance)
    requires OrZero(s.amount) > 0 && s.contractsLoaded
    requires ApproveKind !in p.world.faults && DepositKind !in p.world.faults
    requires OrZero(s.amount) <= p.world.wallet
    ensures Added(p.world.log, Confirm(s, p).progress.world.log, Entry(Deposit(OrZero(s.amount)), true))
    ensures DepositStage(s, ApprovalStage(s, p).progress).progress.world.billing == p.world.billing + OrZero(s.amount)
  {
    var r1 := ApprovalStage(s, p);
    var r2 := DepositStage(s, r1.progress);
    var b := r1.progress.world.log;
    assert r1.progress.world.allowance >= OrZero(s.amount);
    assert r2.progress.world.log[|b|] == Entry(Deposit(OrZero(s.amount)), true);
    assert Confirm(s, p).progress.world.log[|b|] == r2.progress.world.log[|b|];
  }

  /** The money a successful run moves: when a deposit was due and the
      contracts were loaded, exactly the amount leaves the wallet and arrives
      in the billing account, and otherwise neither balance changes; the
      allowance ends at what the approval (if one was made) set it to, less
      the deposit. */
  lemma SuccessfulRunLedger(s: Snapshot, p: Progress)
    requires Confirm(s, p).outcome.Ok?
    ensures var moved := if NeedDepositMore(s.amount) && s.contractsLoaded then OrZero(s.amount) else 0;
      var w := Confirm(s, p).progress.world;
      && w.wallet == p.world.wallet - moved
      && w.billing == p.world.billing + moved
      && w.allowance == (if NeedAddAllowance(s.allowanceSeen, s.amount) then OrZero(s.amount) else p.world.allowance) - moved
  {
  }

  /** Whatever the outcome, a run only moves funds from the wallet to the
      billing account: their sum is unchanged and the billing balance never
      drops. */
  lemma ConfirmConservesFunds(s: Snapshot, p: Progress)
    ensures var w := Confirm(s, p).progress.world;
      && w.wallet + w.billing == p.world.wallet + p.world.billing
      && p.world.billing <= w.billing
  {
  }

  /** A successful run had a price and a usable sample, ended with the
      prescribed plan request, and left the sample sorted by duration. */
  lemma ConfirmSuccessSendsPlan(s: Snapshot, p: Progress)
    requires Confirm(s, p).outcome.Ok?
    ensures s.price != Unset && p.offers != Some([])
    ensures var log := Confirm(s, p).progress.world.log;
      log[|log| - 1] == Entry(PlanCall(s, SortedSample(p.offers)), true)
    ensures Confirm(s, p).progress.offers == SortedSample(p.offers)
  {
    SuccessfulRunStages(s, p);
    var t1 := ApprovalStage(s, p);
    var t2 := DepositStage(s, t1.progress);
    var t3 := ApiKeyStage(s, t2.progress);
    assert t3.progress.offers == p.offers;
  }

  lemma FromApiKeyWithoutPlan(s: Snapshot, p: Progress)
    requires s.price.Unset? || p.offers == Some([])
    ensures FromApiKey(s, p).outcome.Err?
    ensures StageContract(p, FromApiKey(s, p), 2, 3)
  {
    var r3 := ApiKeyStage(s, p);
    if r3.outcome.Ok? {
      assert r3.progress.offers == p.offers;
      assert FromApiKey(s, p) == PlanStage(s, r3.progress);
      assert PlanStage(s, r3.progress).progress.world.log == r3.progress.world.log;
    }
  }

  lemma FromDepositWithoutPlan(s: Snapshot, p: Progress)
    requires s.price.Unset? || p.offers == Some([])
    ensures FromDeposit(s, p).outcome.Err?
    ensures StageContract(p, FromDeposit(s, p), 1, 3)
  {
    var r2 := DepositStage(s, p);
    if r2.outcome.Ok? {
      FromApiKeyWithoutPlan(s, r2.progress);
      StageChain(p, r2, FromApiKey(s, r2.progress), 1, 1, 2, 3);
    }
  }

  /** Without a price, or with an empty sample, the run fails and every call
      it makes belongs to a stage before the plan stage: no plan is created or
      updated. */
  lemma NoPlanWithoutPriceOrSample(s: Snapshot, p: Progress)
    requires s.price.Unset? || p.offers == Some([])
    ensures Confirm(s, p).outcome.Err?
    ensures Appended(p.world.log, Confirm(s, p).progress.world.log, 0, 3)
  {
    var r1 := ApprovalStage(s, p);
    if r1.outcome.Ok? {
      FromDepositWithoutPlan(s, r1.progress);
      StageChain(p, r1, Confirm(s, p), 0, 0, 1, 3);
    }
  }

  // ---------------------------------------------------------------------------
  // The plan request

  /** Reference reading of the expiration: the longest duration any offer
      accepts, or seven days when the sample is absent or that duration is 0. */
  function LongestOrDefault(offers: Option<seq<Offer>>): nat
    requires offers != Some([])
  {
    if offers.None? || MaxTimeOf(offers.value) == 0 then DefaultExpiration else MaxTimeOf(offers.value)
  }

  /** The plan request carries the entered price per request (the per-1000
      price divided by 1000, truncated), the provider limit, the longest
      duration in the sample, and the previous plan's id (0 for a new plan). */
  lemma PlanCallParameters(s: Snapshot, offers: Option<seq<Offer>>)
    requires offers != Some([])
    ensures PlanCall(s, SortedSample(offers)).UpdatePlan? <==> s.prevPlanId.Some?
    ensures var q := PlanCall(s, SortedSample(offers)).params;
      && q.deploymentId == s.deploymentId
      && q.price * 1000 <= PriceValue(s.price) < q.price * 1000 + 1000
      && q.maximum == s.maximum
      && q.expiration == LongestOrDefault(offers)
      && q.id == (if s.prevPlanId.Some? then s.prevPlanId.value else 0)
  {
    if offers.Some? {
      SortByMaxTimeHead(offers.value);
    }
  }

  lemma InPrices1000(s: seq<Offer>, x: nat)
    requires x in Prices1000(s)
    ensures exists o :: o in s && x == PerThousand(o.price)
  {
    if s[0].price * 1000 != x {
      InPrices1000(s[1..], x);
      var o :| o in s[1..] && x == PerThousand(o.price);
      assert o in s;
    }
  }

  /** Picking the economy or performance card sends, as the per-request price,
      the quote of some provider in the sample. */
  lemma TierPlanPriceIsQuoted(s: Snapshot, sample: seq<Offer>, tier: Tier)
    requires sample != [] && tier != Custom
    requires s.price == Estimated(TierPrice(EstimateTiers(Some(sample)), tier))
    ensures exists o :: o in sample && PlanCall(s, SortedSample(Some(sample))).params.price == o.price
  {
    EstimateInSample(sample);
    InPrices1000(sample, PriceValue(s.price));
  }

  // ---------------------------------------------------------------------------
  // Clicking again

  /** The snapshot of the render after a run: the same props and plan form, with
      the refetched allowance and the reset deposit field. */
  function NextSnapshot(s: Snapshot, r: Run): Snapshot
  {
    s.(allowanceSeen := r.progress.allowanceSeen, amount := r.progress.amount)
  }

  function MutatingCalls(es: seq<Entry>): (cs: seq<Call>)
    ensures forall c :: c in cs ==> c.Mutating()
  {
    if es == [] then []
    else (if es[0].call.Mutating() then [es[0].call] else []) + MutatingCalls(es[1..])
  }

  /** What a successful run leaves behind for the next click: no amount to
      deposit, the wizard's key in place whenever the listing works, the same
      faults, the sample sorted, and a plan call the service accepts. */
  lemma SuccessfulRunLeaves(s: Snapshot, p: Progress)
    requires Confirm(s, p).outcome.Ok? && p.amount == s.amount
    ensures var q := Confirm(s, p).progress;
      && OrZero(q.amount) == 0
      && q.world.faults == p.world.faults
      && q.offers == SortedSample(p.offers) && q.offers != Some([])
      && (!s.prevApiKey && ListKeysKind !in q.world.faults ==> SpecialApiKeyName in q.world.keys)
      && Kind(PlanCall(s, SortedSample(p.offers))) !in q.world.faults
  {
    SuccessfulRunStages(s, p);
    ConfirmSuccessSendsPlan(s, p);
    var t1 := ApprovalStage(s, p);
    var t2 := DepositStage(s, t1.progress);
    var t3 := ApiKeyStage(s, t2.progress);
    var q := Confirm(s, p).progress;
    assert q.amount == t2.progress.amount;
    assert q.world.keys == t3.progress.world.keys;
    assert t3.progress.offers == p.offers;
  }

  /** A run from a snapshot with nothing to deposit, the key in place and an
      accepted plan call succeeds, listing the keys at most once and sending
      the plan call. */
  lemma RunWithNothingLeft(s: Snapshot, q: Progress)
    requires OrZero(s.amount) == 0 && s.price != Unset && q.offers != Some([])
    requires !s.prevApiKey && ListKeysKind !in q.world.faults ==> SpecialApiKeyName in q.world.keys
    requires Kind(PlanCall(s, SortedSample(q.offers))) !in q.world.faults
    ensures Confirm(s, q).outcome.Ok?
    ensures Confirm(s, q).progress.world.log == q.world.log +
      (if s.prevApiKey then [] else [Entry(ListKeys, ListKeysKind !in q.world.faults)]) +
      [Entry(PlanCall(s, SortedSample(q.offers)), true)]
  {
    assert ApprovalStage(s, q) == Run(Ok, q);
    assert DepositStage(s, q) == Run(Ok, q);
    assert Confirm(s, q) == FromApiKey(s, q);
    var u3 := ApiKeyStage(s, q);
    assert u3.outcome.Ok? && u3.progress.offers == q.offers;
  }

  /** Sorting the already sorted sample again sends the same plan request. */
  lemma PlanCallStable(s: Snapshot, s2: Snapshot, offers: Option<seq<Offer>>)
    requires offers != Some([])
    requires s2 == s.(allowanceSeen := s2.allowanceSeen, amount := s2.amount)
    ensures SortedSample(offers) != Some([])
    ensures PlanCall(s2, SortedSample(SortedSample(offers))) == PlanCall(s, SortedSample(offers))
  {
    PlanCallParameters(s, offers);
    if offers.Some? {
      MaxTimeOfPermutation(SortByMaxTime(offers.value), offers.value);
    }
    PlanCallParameters(s2, SortedSample(offers));
  }

  lemma MutatingCallsOfRerun(log: seq<Entry>, listed: bool, listingOk: bool, call: Call)
    requires call.Mutating()
    ensures MutatingCalls((log + (if listed then [Entry(ListKeys, listingOk)] else []) + [Entry(call, true)])[|log|..]) == [call]
  {
    var added := (log + (if listed then [Entry(ListKeys, listingOk)] else []) + [Entry(call, true)])[|log|..];
    if listed {
      assert added == [Entry(ListKeys, listingOk), Entry(call, true)];
      assert added[1..] == [Entry(call, true)];
      assert MutatingCalls(added[1..][1..]) == [];
    } else {
      assert added == [Entry(call, true)];
      assert MutatingCalls(added[1..]) == [];
    }
  }

  /** After a successful run, running again from the next render's snapshot is
      not free of side effects: it succeeds again, and its only mutating call is
      the same plan request once more, so without a previous plan a second plan
      is created. */
  lemma SecondRunRepeatsOnlyThePlan(s: Snapshot, p: Progress)
    requires Confirm(s, p).outcome.Ok? && p.amount == s.amount
    ensures var r1 := Confirm(s, p);
      var r2 := Confirm(NextSnapshot(s, r1), r1.progress);
      && r2.outcome.Ok?
      && r1.progress.world.log <= r2.progress.world.log
      && SortedSample(p.offers) != Some([])
      && MutatingCalls(r2.progress.world.log[|r1.progress.world.log|..]) == [PlanCall(s, SortedSample(p.offers))]
  {
    var r1 := Confirm(s, p);
    var s2 := NextSnapshot(s, r1);
    var q := r1.progress;
    ConfirmSuccessSendsPlan(s, p);
    SuccessfulRunLeaves(s, p);
    PlanCallStable(s, s2, p.offers);
    RunWithNothingLeft(s2, q);
    MutatingCallsOfRerun(q.world.log, !s.prevApiKey, ListKeysKind !in q.world.faults, PlanCall(s, SortedSample(p.offers)));
  }
}

=== FILE: flex_plan_values.dfy ===
/** The values the wizard derives from its inputs at every render (`useMemo` in
    CreateFlexPlan): the matched-provider count, the affordable request count,
    the suggested deposit, the three "stage needed" flags, the Next button's
    label, and the form-field vocabulary they read. */
module FlexPlanValues {
  import opened Basics
  import opened Offers
  import opened PriceEstimator

  /** The plan card the user picked on step 0. */
  datatype Tier = Economy | Performance | Custom

  /** The plan form's `price` field: a per-1000 price in base units. A value the
      user typed is a number, and the number 0 reads as false in `!priceValue`;
      a tier estimate is written with `toString()`, a string that reads as true
      even when it is "0". */
  datatype PriceField = Unset | Entered(v: nat) | Estimated(v: nat)

  /** JavaScript truthiness of the `price` field. */
  predicate Truthy(f: PriceField)
  {
    f.Estimated? || (f.Entered? && f.v != 0)
  }

  /** The number a present `price` field holds (0 when unset). */
  function PriceValue(f: PriceField): nat
  {
    if f.Unset? then 0 else f.v
  }

  /** The deposit form's minimum amount (rule at line 470): 500 SQT. */
  const MinDepositAmount: nat := 500 * Sqt

  /** Rule `{ type: 'number', required: true, min: 500 }` of the deposit form. */
  predicate DepositAmountValid(amount: Option<nat>)
  {
    amount.Some? && amount.value >= MinDepositAmount
  }

  /** The tier estimate the Next handler copies into `price` (line 170). */
  function TierPrice(t: Tiers, tier: Tier): nat
  {
    if tier == Performance then t.performance else t.economy
  }

  /** The provider limit the Next handler copies into `maximum` (line 171). */
  function TierMaximum(tier: Tier): nat
  {
    if tier == Economy then 8 else 15
  }

  /** `maximum || 2`: an absent or zero limit reads as two providers. */
  function ResolvedMaximum(maximum: Option<nat>): (m: nat)
    ensures m != 0
    ensures maximum.Some? && maximum.value != 0 ==> m == maximum.value
    ensures maximum.None? || maximum == Some(0) ==> m == 2
  {
    if maximum.Some? && maximum.value != 0 then maximum.value else 2
  }

  // ---------------------------------------------------------------------------
  // Matched providers

  /** `matchedCount`: none when the price is falsy or the sample is absent or
      empty; otherwise the number of offers whose per-1000 price is at most the
      entered price, which never exceeds the sample size. */
  function MatchedCount(price: PriceField, offers: Option<seq<Offer>>): (c: nat)
    ensures !Truthy(price) || offers.None? || offers.value == [] ==> c == 0
    ensures offers.Some? ==> c <= |offers.value|
  {
    if !Truthy(price) || offers.None? || |offers.value| == 0 then 0
    else CountAtMost(Prices1000(offers.value), PriceValue(price))
  }

  /** A higher entered price never matches fewer providers. */
  lemma MatchedCountMonotone(p: nat, q: nat, offers: Option<seq<Offer>>)
    requires 0 < p <= q
    ensures MatchedCount(Entered(p), offers) <= MatchedCount(Entered(q), offers)
  {
    if offers.Some? && offers.value != [] {
      CountAtMostMonotone(Prices1000(offers.value), p, q);
    }
  }

  /** Reordering the sample (as the plan stage's in-place sort does) does not
      change the matched count. */
  lemma {:induction false} MatchedCountUnchangedBySort(price: PriceField, s: seq<Offer>)
    ensures MatchedCount(price, Some(SortByMaxTime(s))) == MatchedCount(price, Some(s))
  {
    SortByMaxTimePrices(s);
    CountPermutation(Prices1000(SortByMaxTime(s)), Prices1000(s), PriceValue(price));
  }

  lemma {:induction false} CountAtMostMax(ps: seq<nat>)
    requires ps != []
    ensures CountAtMost(ps, MaxOf(ps)) == |ps|
  {
    CountAtMostPrefix(ps, |ps|, MaxOf(ps));
  }

  /** The recommended prices are met by more than 40% (economy) and more than
      80% (performance) of the sampled providers. */
  lemma {:induction false} MatchedAtTierPrices(s: seq<Offer>)
    requires s != []
    ensures 5 * MatchedCount(Estimated(EstimateTiers(Some(s)).economy), Some(s)) > 2 * |s|
    ensures 5 * MatchedCount(Estimated(EstimateTiers(Some(s)).performance), Some(s)) > 4 * |s|
  {
    var ps := Prices1000(s);
    var t := EstimateTiers(Some(s));
    var n := |s|;
    if n <= 3 {
      EstimateThinSample(s);
      CountAtMostMax(ps);
    } else if n <= 5 {
      EstimateMidSample(s);
      CountAtMostMax(ps);
    } else {
      EstimateLargeSample(s);
    }
  }

  // ---------------------------------------------------------------------------
  // Affordable requests and the suggested deposit

  /** What `enoughReq` evaluates to: a request count, or Infinity when the
      price is the string "0" and BigNumber divides by zero. */
  datatype RequestBudget = Requests(n: nat) | Unlimited

  /** `decimalPlaces(0)` of a / b under BigNumber's default ROUND_HALF_UP: the
      nearest whole number, halves rounded up. */
  function RoundHalfUp(a: nat, b: nat): (r: nat)
    requires b > 0
    ensures 2 * r * b <= 2 * a + b < 2 * r * b + 2 * b
  {
    var q := (2 * a + b) / (2 * b);
    assert (2 * a + b) == q * (2 * b) + (2 * a + b) % (2 * b);
    q
  }

  /** `enoughReq`: no requests when the price is falsy or the billing balance is
      absent or zero; otherwise balance / price * 1000, rounded to the nearest
      whole number with halves up (not floor). */
  function EnoughRequests(balance: Option<nat>, price: PriceField): (r: RequestBudget)
    ensures !Truthy(price) || OrZero(balance) == 0 ==> r == Requests(0)
    ensures Truthy(price) && OrZero(balance) > 0 && PriceValue(price) == 0 ==> r == Unlimited
    ensures Truthy(price) && OrZero(balance) > 0 && PriceValue(price) > 0 ==>
      && r.Requests?
      && 2 * r.n * PriceValue(price) <= 2000 * OrZero(balance) + PriceValue(price)
      && 2000 * OrZero(balance) + PriceValue(price) < 2 * r.n * PriceValue(price) + 2 * PriceValue(price)
  {
    if !Truthy(price) || balance.None? || balance.value == 0 then Requests(0)
    else if PriceValue(price) == 0 then Unlimited
    else Requests(RoundHalfUp(1000 * balance.value, PriceValue(price)))
  }

  /** 1000 SQT at 100 SQT per 1000 requests pays for 10000 requests; an empty
      billing account pays for none. */
  lemma EnoughRequestsExamples()
    ensures EnoughRequests(Some(1000 * Sqt), Entered(100 * Sqt)) == Requests(10_000)
    ensures EnoughRequests(Some(0), Entered(100 * Sqt)) == Requests(0)
  {
  }

  /** Halves round up: 3 base units at 2000 per 1000 requests is 1.5 requests,
      reported as 2 where a floor would give 1. */
  lemma EnoughRequestsRoundsHalfUp()
    ensures EnoughRequests(Some(3), Entered(2000)) == Requests(2)
  {
  }

  /** A tier estimate of "0" (no offers) makes BigNumber divide by zero. */
  lemma EnoughRequestsZeroEstimate(balance: nat)
    requires balance > 0
    ensures EnoughRequests(Some(balance), Estimated(0)) == Unlimited
  {
  }

  /** The suggestion of lines 455-458: price * 20 * (maximum || 2). */
  function SuggestedDeposit(price: PriceField, maximum: Option<nat>): (d: nat)
    ensures !Truthy(price) ==> d == 0
    ensures Truthy(price) ==> d >= 20 * PriceValue(price)
  {
    var p := if Truthy(price) then PriceValue(price) else 0;
    var m := ResolvedMaximum(maximum);
    MulLeft(1, m, p * 20);
    p * 20 * m
  }

  lemma MulLeft(a: int, b: int, p: int)
    requires p >= 0
    ensures a <= b ==> a * p <= b * p
  {
    assert b * p - a * p == (b - a) * p;
  }

  /** An exact quotient needs no rounding. */
  lemma RoundHalfUpExact(a: nat, b: nat, n: nat)
    requires b > 0 && a == n * b
    ensures RoundHalfUp(a, b) == n
  {
    var r := RoundHalfUp(a, b);
    MulLeft(r + 1, n, b);
    MulLeft(n + 1, r, b);
    assert (r + 1) * b == r * b + b && (n + 1) * b == n * b + b;
  }

  /** A billing balance equal to the suggested deposit pays for exactly 20000
      requests per allocated provider. */
  lemma SuggestedDepositAffords(price: PriceField, maximum: Option<nat>)
    requires PriceValue(price) > 0
    ensures EnoughRequests(Some(SuggestedDeposit(price, maximum)), price)
         == Requests(20_000 * ResolvedMaximum(maximum))
  {
    var p := PriceValue(price);
    var m := ResolvedMaximum(maximum);
    var d := SuggestedDeposit(price, maximum);
    assert Truthy(price);
    assert d == p * (20 * m);
    assert 1000 * d == (20_000 * m) * p;
    RoundHalfUpExact(1000 * d, p, 20_000 * m);
  }

  // ---------------------------------------------------------------------------
  // Stage flags, memoised at the last render (lines 154-164)

  /** `needAddAllowance`: approve when the cached allowance (absent reads as 0)
      is below the deposit amount, so never for an absent or zero amount. */
  function NeedAddAllowance(allowance: Option<nat>, amount: Option<nat>): (b: bool)
    ensures b <==> OrZero(allowance) < OrZero(amount)
  {
    (allowance == Some(0) && amount.Some? && amount.value != 0)
    || OrZero(allowance) < OrZero(amount)
  }

  /** `needDepositMore`: deposit when the amount is present and non-zero. Every
      amount the deposit form accepts is deposited, and with nothing to deposit
      no approval is asked for either, whatever the cached allowance. */
  function NeedDepositMore(amount: Option<nat>): (b: bool)
    ensures b <==> OrZero(amount) > 0
    ensures DepositAmountValid(amount) ==> b
    ensures !b ==> forall allowance :: !NeedAddAllowance(allowance, amount)
  {
    amount.Some? && amount.value != 0
  }

  /** `needCreateApiKey`: only when the wizard was not opened with a key. */
  function NeedCreateApiKey(prevApiKey: bool): bool
  {
    !prevApiKey
  }

  /** `nextBtnText`: the label names the deposit on step 1 and the on-chain
      confirmation on step 2 only. */
  function NextButtonLabel(step: nat): (text: string)
    ensures text == "Deposit SQT" <==> step == 1
    ensures text == "Approve Transactions and Create Flex Plan" <==> step == 2
  {
    if step == 0 then "Next"
    else if step == 1 then "Deposit SQT"
    else if step == 2 then "Approve Transactions and Create Flex Plan"
    else "Next"
  }
}

=== FILE: flex_plan_wizard.dfy ===
/** The three-step Flex Plan wizard component (CreateFlexPlan): its state is
    the current step, the chosen plan card, the plan form (price, provider
    limit), the deposit form (amount), the offer sample and the cached
    allowance and billing balance; its handlers are the card and form inputs,
    Back, Skip and Next. Next on the last step runs the confirm pipeline to
    completion, so the loading flag is observed only between handlers. */
module FlexPlanWizard {
  import opened Basics
  import opened Offers
  import opened PriceEstimator
  import opened FlexPlanValues
  import opened BillingWorld
  import opened ConfirmPipeline

  /** What the offer listing returned (lines 73-86): the project's offers, or
      a thrown error. */
  datatype SampleResponse = Listed(offers: seq<Offer>) | ListingFailed

  /** The sample the wizard keeps: an error leaves an empty array, an empty
      listing leaves nothing (the async memo returns undefined), and a non-empty
      listing is kept as it came. */
  function SampleFrom(resp: SampleResponse): (sample: Option<seq<Offer>>)
    ensures sample.Some? <==> resp.ListingFailed? || resp.offers != []
    ensures sample.Some? && sample.value != [] ==> resp == Listed(sample.value)
  {
    match resp
    case ListingFailed => Some([])
    case Listed(offers) => if offers == [] then None else Some(offers)
  }

  /** What a click on Next did. */
  datatype NextResult =
    | Ignored              // the button was showing its loading state
    | Rejected             // form validation failed; nothing changed
    | Advanced             // moved to the next step
    | Confirmed(outcome: Outcome)   // ran the confirm pipeline

  class CreateFlexPlan {
    // Props and the contracts handle, fixed for the component's life.
    const deploymentId: string
    const prevApiKey: bool
    const prevPlanId: Option<nat>
    const contractsLoaded: bool

    var sampleLoading: bool
    var offers: Option<seq<Offer>>
    var allowanceSeen: Option<nat>
    var balanceSeen: Option<nat>

    var currentStep: nat
    var selectedPlan: Tier
    var nextBtnLoading: bool
    var price: PriceField
    var maximum: Option<nat>
    var amount: Option<nat>

    /** Steps run 0..2; once past the plan step the plan form holds a price and
        a non-zero provider limit; the loading flag is down between handlers. */
    predicate Valid()
      reads this
    {
      && currentStep <= 2
      && !nextBtnLoading
      && (currentStep >= 1 ==> price != Unset && maximum.Some? && maximum.value != 0)
    }

    /** `loading={flexPlans.loading || nextBtnLoading}`: clicks are ignored. */
    predicate Busy()
      reads this
    {
      sampleLoading || nextBtnLoading
    }

    /** The values the confirm handler closes over at this render. */
    function CurrentSnapshot(): (s: Snapshot)
      reads this
      requires Valid() && currentStep == 2
      ensures s.maximum != 0 && s.price != Unset
      ensures s.amount == amount && s.allowanceSeen == allowanceSeen
    {
      Snapshot(deploymentId, prevApiKey, prevPlanId, contractsLoaded,
        allowanceSeen, amount, price, maximum.value)
    }

    /** The part of the wizard the confirm handler advances, with the world. */
    function CurrentProgress(w: World): Progress
      reads this
    {
      Progress(w, allowanceSeen, balanceSeen, amount, offers)
    }

    /** Mounting: step 0 with the economy card, empty forms, and the offer
        sample still loading. */
    constructor (deploymentId: string, prevApiKey: bool, prevPlanId: Option<nat>, contractsLoaded: bool,
                 allowance: Option<nat>, balance: Option<nat>)
      ensures Valid() && Busy()
      ensures this.deploymentId == deploymentId && this.prevApiKey == prevApiKey
      ensures this.prevPlanId == prevPlanId && this.contractsLoaded == contractsLoaded
      ensures currentStep == 0 && selectedPlan == Economy
      ensures price == Unset && maximum == None && amount == None
      ensures sampleLoading && offers == None
      ensures allowanceSeen == allowance && balanceSeen == balance
    {
      this.deploymentId := deploymentId;
      this.prevApiKey := prevApiKey;
      this.prevPlanId := prevPlanId;
      this.contractsLoaded := contractsLoaded;
      sampleLoading := true;
      offers := None;
      allowanceSeen := allowance;
      balanceSeen := balance;
      currentStep := 0;
      selectedPlan := Economy;
      nextBtnLoading := false;
      price := Unset;
      maximum := None;
      amount := None;
    }

    /** The offer listing settles. */
    method SampleArrived(resp: SampleResponse)
      requires Valid()
      modifies this`sampleLoading, this`offers
      ensures Valid() && !sampleLoading
      ensures offers == SampleFrom(resp)
    {
      sampleLoading := false;
      offers := SampleFrom(resp);
    }

    /** Lines 250-258: after an account change the allowance and balances are
        read again. */
    method Refetch(w: World)
      requires Valid()
      modifies this`allowanceSeen, this`balanceSeen
      ensures Valid()
      ensures allowanceSeen == Some(w.allowance) && balanceSeen == Some(w.billing)
    {
      allowanceSeen := Some(w.allowance);
      balanceSeen := Some(w.billing);
    }

    /** Clicking a plan card (shown on step 0 only), lines 286-349. Switching to
        the custom card from a tier card clears the plan form; clicking the
        custom card again, or any tier card, keeps it. */
    method SelectPlan(tier: Tier)
      requires Valid() && currentStep == 0
      modifies this`selectedPlan, this`price, this`maximum
      ensures Valid() && selectedPlan == tier
      ensures if tier == Custom && old(selectedPlan) != Custom
              then price == Unset && maximum == None
              else price == old(price) && maximum == old(maximum)
    {
      if tier == Custom && selectedPlan != Custom {
        price, maximum := Unset, None;
      }
      selectedPlan := tier;
    }

    /** Typing into, or clearing, the custom price (shown on step 0 with the
        custom card only). */
    method EnterPrice(v: Option<nat>)
      requires Valid() && currentStep == 0 && selectedPlan == Custom
      modifies this`price
      ensures Valid()
      ensures price == (if v.Some? then Entered(v.value) else Unset)
    {
      price := if v.Some? then Entered(v.value) else Unset;
    }

    /** Typing into, or clearing, the optional provider limit (shown with the
        custom price). */
    method EnterMaximum(v: Option<nat>)
      requires Valid() && currentStep == 0 && selectedPlan == Custom
      modifies this`maximum
      ensures Valid() && maximum == v
    {
      maximum := v;
    }

    /** Typing into, or clearing, the deposit amount (shown on step 1). */
    method EnterAmount(v: Option<nat>)
      requires Valid() && currentStep == 1
      modifies this`amount
      ensures Valid() && amount == v
    {
      amount := v;
    }

    /** Lines 555-561: Back on step 0 leaves the wizard (the caller's cancel
        callback) and changes nothing; on a later step it goes one step back. */
    method Back() returns (cancelled: bool)
      requires Valid()
      modifies this`currentStep
      ensures Valid()
      ensures cancelled <==> old(currentStep) == 0
      ensures currentStep == if cancelled then 0 else old(currentStep) - 1
    {
      cancelled := currentStep == 0;
      if !cancelled {
        currentStep := currentStep - 1;
      }
    }

    /** Lines 566-578: on step 1, with a positive billing balance, skip the
        deposit: the amount field returns to empty and the wizard goes to the
        confirmation step. */
    method Skip()
      requires Valid() && currentStep == 1 && OrZero(balanceSeen) > 0
      modifies this`amount, this`currentStep
      ensures Valid()
      ensures amount == None && currentStep == 2
      ensures !NeedAddAllowance(allowanceSeen, amount) && !NeedDepositMore(amount)
    {
      amount := None;
      currentStep := 2;
    }

    /** Lines 167-178: Next on the plan step. A tier card copies the tier's
        estimated price and its provider limit into the plan form; the custom
        card requires a price and defaults an absent or zero limit to two. */
    method NextOnPlanStep() returns (result: NextResult)
      requires Valid() && currentStep == 0
      modifies this`currentStep, this`price, this`maximum
      ensures Valid()
      ensures old(selectedPlan) != Custom ==>
        && result == Advanced && currentStep == 1
        && price == Estimated(TierPrice(EstimateTiers(offers), selectedPlan))
        && maximum == Some(TierMaximum(selectedPlan))
      ensures selectedPlan == Custom ==>
        && price == old(price)
        && (if price.Unset?
            then result == Rejected && currentStep == 0 && maximum == old(maximum)
            else result == Advanced && currentStep == 1 && maximum == Some(ResolvedMaximum(old(maximum))))
    {
      result := Advanced;
      if selectedPlan != Custom {
        price := Estimated(TierPrice(EstimateTiers(offers), selectedPlan));
        maximum := Some(TierMaximum(selectedPlan));
      } else {
        if price.Unset? {
          result := Rejected;
          return;
        }
        maximum := Some(ResolvedMaximum(maximum));
      }
      currentStep := 1;
    }

    /** Lines 180-183: Next on the deposit step validates the amount. */
    method NextOnDepositStep() returns (result: NextResult)
      requires Valid() && currentStep == 1
      modifies this`currentStep
      ensures Valid()
      ensures if DepositAmountValid(amount)
              then result == Advanced && currentStep == 2
              else result == Rejected && currentStep == 1
    {
      if !DepositAmountValid(amount) {
        result := Rejected;
        return;
      }
      result := Advanced;
      currentStep := 2;
    }

    /** Lines 185-243: Next on the confirmation step runs the confirm pipeline
        from this render's snapshot and writes its progress back whatever the
        outcome, with the loading flag down again. */
    method NextOnConfirmStep(w: World) returns (w': World, result: NextResult)
      requires Valid() && currentStep == 2
      modifies this`nextBtnLoading, this`allowanceSeen, this`balanceSeen, this`amount, this`offers
      ensures Valid()
      ensures var r := Confirm(old(CurrentSnapshot()), old(CurrentProgress(w)));
        && result == Confirmed(r.outcome)
        && w' == r.progress.world
        && CurrentProgress(w') == r.progress
    {
      var snapshot, progress := CurrentSnapshot(), CurrentProgress(w);
      nextBtnLoading := true;
      var r := Confirm(snapshot, progress);
      nextBtnLoading := false;
      WriteBack(r.progress);
      w' := r.progress.world;
      result := Confirmed(r.outcome);
    }

    /** Stores the progress of a confirm run in the wizard's state. */
    method WriteBack(p: Progress)
      modifies this`allowanceSeen, this`balanceSeen, this`amount, this`offers
      ensures CurrentProgress(p.world) == p
    {
      allowanceSeen, balanceSeen, amount, offers := p.allowanceSeen, p.balanceSeen, p.amount, p.offers;
    }

    /** Lines 166-244 and 583-584: a click on Next while the button shows its
        loading state does nothing; otherwise Next acts on the step it was
        clicked on, and only on that one. */
    method Next(w: World) returns (w': World, result: NextResult)
      requires Valid()
      modifies this`currentStep, this`price, this`maximum, this`nextBtnLoading,
               this`allowanceSeen, this`balanceSeen, this`amount, this`offers
      ensures Valid()
      ensures old(Busy()) ==> result == Ignored && w' == w && unchanged(this)
      ensures !old(Busy()) && old(currentStep) < 2 ==>
        && w' == w && result != Ignored
        && amount == old(amount) && offers == old(offers)
        && allowanceSeen == old(allowanceSeen) && balanceSeen == old(balanceSeen)
      ensures !old(Busy()) && old(currentStep) == 0 && old(selectedPlan) != Custom ==>
        && result == Advanced && currentStep == 1
        && price == Estimated(TierPrice(EstimateTiers(offers), old(selectedPlan)))
        && maximum == Some(TierMaximum(old(selectedPlan)))
      ensures !old(Busy()) && old(currentStep) == 0 && old(selectedPlan) == Custom ==>
        && price == old(price)
        && (if old(price).Unset?
            then result == Rejected && currentStep == 0 && maximum == old(maximum)
            else result == Advanced && currentStep == 1 && maximum == Some(ResolvedMaximum(old(maximum))))
      ensures !old(Busy()) && old(currentStep) == 1 ==>
        && price == old(price) && maximum == old(maximum)
        && (if DepositAmountValid(old(amount))
            then result == Advanced && currentStep == 2
            else result == Rejected && currentStep == 1)
      ensures !old(Busy()) && old(currentStep) == 2 ==>
        var r := Confirm(old(CurrentSnapshot()), old(CurrentProgress(w)));
        && result == Confirmed(r.outcome)
        && w' == r.progress.world
        && CurrentProgress(w') == r.progress
        && currentStep == 2 && price == old(price) && maximum == old(maximum)
    {
      w' := w;
      if Busy() {
        result := Ignored;
      } else if currentStep == 0 {
        result := NextOnPlanStep();
      } else if currentStep == 1 {
        result := NextOnDepositStep();
      } else {
        w', result := NextOnConfirmStep(w);
      }
    }
  }
}

=== FILE: offers.dfy ===
/** The sample of provider offers that the wizard fetches once per session
    (`flexPlans`), the per-1000-request price conversion, and the two orderings
    the wizard imposes on the sample: ascending per-1000 price for the tier
    estimate, and descending `max_time` for the plan's expiration. */
module Offers {
  import opened Basics

  /** One provider's quote: `price` per request in base units (the listing's
      `price` string), `maxTime` the longest plan duration it accepts, in seconds. */
  datatype Offer = Offer(price: nat, maxTime: nat)

  /** `converFlexPlanPrice` at a fixed scale: the price of 1000 requests, in base
      units. Dividing by 1000, as the plan stage does, gives the quote back. */
  function PerThousand(price: nat): (r: nat)
    ensures r / 1000 == price && r % 1000 == 0
  {
    price * 1000
  }

  /** The per-1000 prices of a sample, in sample order (`flexPlans.data.map(...)`). */
  function Prices1000(offers: seq<Offer>): (ps: seq<nat>)
    ensures |ps| == |offers|
  {
    if offers == [] then [] else [PerThousand(offers[0].price)] + Prices1000(offers[1..])
  }

  /** Position i of the price list holds the i-th offer's per-1000 price. */
  lemma {:induction false} Prices1000At(offers: seq<Offer>)
    ensures forall i :: 0 <= i < |offers| ==> Prices1000(offers)[i] == PerThousand(offers[i].price)
  {
    if offers != [] {
      Prices1000At(offers[1..]);
      assert forall i :: 1 <= i < |offers| ==> offers[i] == offers[1..][i - 1];
    }
  }

  /** Removing a matched element from two equal multisets leaves equal multisets. */
  lemma {:induction false} MultisetRemove<T>(a: seq<T>, b: seq<T>, j: nat)
    requires multiset(a) == multiset(b) && a != [] && j < |b| && b[j] == a[0]
    ensures multiset(a[1..]) == multiset(b[..j] + b[j + 1..])
  {
    var x := a[0];
    assert a == [x] + a[1..];
    assert b == b[..j] + [x] + b[j + 1..];
    calc {
      multiset(a[1..]);
      multiset(a) - multiset{x};
      multiset(b) - multiset{x};
      multiset(b[..j] + b[j + 1..]);
    }
  }

  // ---------------------------------------------------------------------------
  // Ascending order of prices

  predicate Ascending(s: seq<nat>)
  {
    forall i, j :: 0 <= i < j < |s| ==> s[i] <= s[j]
  }

  /** Every element of `t` is at least `lo` when `t` holds the elements of `u`
      and `x`, and all of those are. */
  lemma {:induction false} LowerBoundKept(lo: nat, t: seq<nat>, u: seq<nat>, x: nat)
    requires multiset(t) == multiset(u) + multiset{x}
    requires lo <= x && forall k :: 0 <= k < |u| ==> lo <= u[k]
    ensures forall k :: 0 <= k < |t| ==> lo <= t[k]
  {
    forall k | 0 <= k < |t|
      ensures lo <= t[k]
    {
      assert t[k] in multiset(t);
      if t[k] != x {
        assert t[k] in multiset(u);
        var j :| 0 <= j < |u| && u[j] == t[k];
      }
    }
  }

  lemma {:induction false} ConsAscending(h: nat, t: seq<nat>)
    requires Ascending(t) && (t == [] || h <= t[0])
    ensures Ascending([h] + t)
  {
    var r := [h] + t;
    forall i, j | 0 <= i < j < |r|
      ensures r[i] <= r[j]
    {
      if i > 0 {
        assert r[i] == t[i - 1] && r[j] == t[j - 1];
      } else {
        assert r[j] == t[j - 1];
      }
    }
  }

  function InsertAsc(x: nat, s: seq<nat>): (r: seq<nat>)
    requires Ascending(s)
    ensures Ascending(r)
    ensures multiset(r) == multiset(s) + multiset{x}
  {
    if s == [] || x <= s[0] then
      ConsAscending(x, s);
      [x] + s
    else
      var tail := InsertAsc(x, s[1..]);
      assert s == [s[0]] + s[1..];
      LowerBoundKept(s[0], tail, s[1..], x);
      ConsAscending(s[0], tail);
      [s[0]] + tail
  }

  /** The ascending sort of line 97 (an insertion sort: the comparator only
      orders ascending, and any two ascending arrangements of one multiset are
      the same sequence, see AscendingUnique). */
  function SortAsc(s: seq<nat>): (r: seq<nat>)
    ensures Ascending(r)
    ensures multiset(r) == multiset(s)
    ensures |r| == |s|
  {
    if s == [] then []
    else
      assert s == [s[0]] + s[1..];
      var r := InsertAsc(s[0], SortAsc(s[1..]));
      assert |r| == |multiset(r)|;
      r
  }

  /** The first element of an ascending sequence is its least. */
  lemma {:induction false} HeadIsLeast(a: seq<nat>, x: nat)
    requires Ascending(a) && x in multiset(a)
    ensures a != [] && a[0] <= x
  {
    var i :| 0 <= i < |a| && a[i] == x;
  }

  lemma {:induction false} TailMultiset<T>(a: seq<T>)
    requires a != []
    ensures multiset(a[1..]) == multiset(a) - multiset{a[0]}
  {
    assert a == [a[0]] + a[1..];
  }

  lemma {:induction false} AscendingTail(a: seq<nat>)
    requires Ascending(a) && a != []
    ensures Ascending(a[1..])
  {
    forall i, j | 0 <= i < j < |a[1..]|
      ensures a[1..][i] <= a[1..][j]
    {
      assert a[1..][i] == a[i + 1] && a[1..][j] == a[j + 1];
    }
  }

  /** Two ascending arrangements of one non-empty multiset start alike and
      continue as ascending arrangements of one multiset. */
  lemma {:induction false} AscendingHeads(a: seq<nat>, b: seq<nat>)
    requires Ascending(a) && Ascending(b) && multiset(a) == multiset(b) && a != []
    ensures b != [] && a[0] == b[0]
    ensures Ascending(a[1..]) && Ascending(b[1..]) && multiset(a[1..]) == multiset(b[1..])
  {
    assert a[0] in multiset(b);
    HeadIsLeast(b, a[0]);
    HeadIsLeast(a, b[0]);
    TailMultiset(a);
    TailMultiset(b);
    AscendingTail(a);
    AscendingTail(b);
  }

  /** An ascending sequence is determined by its multiset. */
  lemma {:induction false} AscendingUnique(a: seq<nat>, b: seq<nat>)
    requires Ascending(a) && Ascending(b) && multiset(a) == multiset(b)
    ensures a == b
  {
    if a == [] {
      assert |b| == |multiset(b)| == 0;
    } else {
      AscendingHeads(a, b);
      AscendingUnique(a[1..], b[1..]);
      assert a == [a[0]] + a[1..] && b == [b[0]] + b[1..];
    }
  }

  /** The sorted sample depends only on the multiset of prices. */
  lemma {:induction false} SortAscPermutation(a: seq<nat>, b: seq<nat>)
    requires multiset(a) == multiset(b)
    ensures SortAsc(a) == SortAsc(b)
  {
    AscendingUnique(SortAsc(a), SortAsc(b));
  }

  // ---------------------------------------------------------------------------
  // Counting prices

  /** How many prices are at most `p`. */
  function CountAtMost(s: seq<nat>, p: nat): (c: nat)
    ensures c <= |s|
  {
    if s == [] then 0 else (if s[0] <= p then 1 else 0) + CountAtMost(s[1..], p)
  }

  /** How many prices are strictly below `p`. */
  function CountBelow(s: seq<nat>, p: nat): (c: nat)
    ensures c <= |s|
  {
    if s == [] then 0 else (if s[0] < p then 1 else 0) + CountBelow(s[1..], p)
  }

  lemma {:induction false} CountAppend(a: seq<nat>, b: seq<nat>, p: nat)
    ensures CountAtMost(a + b, p) == CountAtMost(a, p) + CountAtMost(b, p)
    ensures CountBelow(a + b, p) == CountBelow(a, p) + CountBelow(b, p)
  {
    if a != [] {
      assert (a + b)[1..] == a[1..] + b;
      CountAppend(a[1..], b, p);
    } else {
      assert a + b == b;
    }
  }

  lemma {:induction false} CountSplit(b: seq<nat>, j: nat, p: nat)
    requires j < |b|
    ensures CountAtMost(b, p) == (if b[j] <= p then 1 else 0) + CountAtMost(b[..j] + b[j + 1..], p)
    ensures CountBelow(b, p) == (if b[j] < p then 1 else 0) + CountBelow(b[..j] + b[j + 1..], p)
  {
    assert b == b[..j] + ([b[j]] + b[j + 1..]);
    CountAppend(b[..j], [b[j]] + b[j + 1..], p);
    CountAppend(b[..j], b[j + 1..], p);
    assert ([b[j]] + b[j + 1..])[1..] == b[j + 1..];
  }

  /** Counts do not depend on the order of the sample. */
  lemma {:induction false} CountPermutation(a: seq<nat>, b: seq<nat>, p: nat)
    requires multiset(a) == multiset(b)
    ensures CountAtMost(a, p) == CountAtMost(b, p)
    ensures CountBelow(a, p) == CountBelow(b, p)
  {
    if a == [] {
      assert |b| == |multiset(b)| == 0;
    } else {
      assert a[0] in multiset(b);
      var j :| 0 <= j < |b| && b[j] == a[0];
      MultisetRemove(a, b, j);
      CountPermutation(a[1..], b[..j] + b[j + 1..], p);
      CountSplit(b, j, p);
    }
  }

  lemma {:induction false} CountAtMostMonotone(s: seq<nat>, p: nat, q: nat)
    requires p <= q
    ensures CountAtMost(s, p) <= CountAtMost(s, q)
  {
    if s != [] {
      CountAtMostMonotone(s[1..], p, q);
    }
  }

  lemma {:induction false} CountAtMostPrefix(t: seq<nat>, m: nat, p: nat)
    requires m <= |t|
    requires forall i :: 0 <= i < m ==> t[i] <= p
    ensures CountAtMost(t, p) >= m
  {
    if m > 0 {
      CountAtMostPrefix(t[1..], m - 1, p);
    }
  }

  lemma {:induction false} CountBelowSuffix(t: seq<nat>, m: nat, p: nat)
    requires m <= |t|
    requires forall i :: m <= i < |t| ==> p <= t[i]
    ensures CountBelow(t, p) <= m
  {
    if t != [] {
      CountBelowSuffix(t[1..], if m == 0 then 0 else m - 1, p);
    }
  }

  lemma {:induction false} CountAtMostBelow(s: seq<nat>, p: nat, q: nat)
    requires p < q
    ensures CountAtMost(s, p) <= CountBelow(s, q)
  {
    if s != [] {
      CountAtMostBelow(s[1..], p, q);
    }
  }

  // ---------------------------------------------------------------------------
  // Order statistics

  /** `e` is the k-th smallest price (0-based) of the sample: at most k prices
      lie below it and more than k lie at or below it. */
  predicate IsRank(s: seq<nat>, k: nat, e: nat)
  {
    CountBelow(s, e) <= k < CountAtMost(s, e)
  }

  /** At most one value has a given rank. */
  lemma {:induction false} RankUnique(s: seq<nat>, k: nat, e1: nat, e2: nat)
    requires IsRank(s, k, e1) && IsRank(s, k, e2)
    ensures e1 == e2
  {
    if e1 < e2 {
      CountAtMostBelow(s, e1, e2);
    } else if e2 < e1 {
      CountAtMostBelow(s, e2, e1);
    }
  }

  lemma {:induction false} AscendingRank(t: seq<nat>, s: seq<nat>, k: nat)
    requires Ascending(t) && multiset(t) == multiset(s) && k < |t|
    ensures IsRank(s, k, t[k])
  {
    CountAtMostPrefix(t, k + 1, t[k]);
    CountBelowSuffix(t, k, t[k]);
    CountPermutation(t, s, t[k]);
  }

  /** Position k of the ascending sort holds the k-th smallest price. */
  lemma {:induction false} SortedRank(s: seq<nat>, k: nat)
    requires k < |s|
    ensures IsRank(s, k, SortAsc(s)[k])
  {
    AscendingRank(SortAsc(s), s, k);
  }

  /** The largest price of a non-empty sample (an independent reference for
      `sortedFlexPlans.at(-1)`). */
  function MaxOf(s: seq<nat>): (m: nat)
    requires s != []
    ensures exists i :: 0 <= i < |s| && s[i] == m
    ensures forall i :: 0 <= i < |s| ==> s[i] <= m
  {
    if |s| == 1 then s[0]
    else
      var r := MaxOf(s[1..]);
      assert forall i :: 1 <= i < |s| ==> s[i] == s[1..][i - 1];
      if s[0] >= r then s[0] else r
  }

  lemma {:induction false} AscendingLastIsMax(t: seq<nat>, s: seq<nat>)
    requires Ascending(t) && multiset(t) == multiset(s) && s != []
    ensures |t| == |s| && t[|t| - 1] == MaxOf(s)
  {
    assert |t| == |multiset(t)| == |multiset(s)| == |s|;
    var m := MaxOf(s);
    var k :| 0 <= k < |s| && s[k] == m;
    assert m in multiset(s);
    var i :| 0 <= i < |t| && t[i] == m;
    var last := t[|t| - 1];
    assert last in multiset(t);
    var j :| 0 <= j < |s| && s[j] == last;
    assert last <= m;
    assert i == |t| - 1 || t[i] <= last;
  }

  /** The last element of the ascending sort is the largest price. */
  lemma {:induction false} SortedLastIsMax(s: seq<nat>)
    requires s != []
    ensures SortAsc(s)[|s| - 1] == MaxOf(s)
  {
    var t := SortAsc(s);
    AscendingLastIsMax(t, s);
    assert t[|t| - 1] == MaxOf(s);
  }

  // ---------------------------------------------------------------------------
  // Descending order of max_time (the in-place sort of line 226)

  predicate ByMaxTimeDesc(s: seq<Offer>)
  {
    forall i, j :: 0 <= i < j < |s| ==> s[j].maxTime <= s[i].maxTime
  }

  /** Every offer of `t` accepts at most `hi` when `t` holds the offers of `u`
      and `x`, and all of those do. */
  lemma {:induction false} UpperBoundKept(hi: nat, t: seq<Offer>, u: seq<Offer>, x: Offer)
    requires multiset(t) == multiset(u) + multiset{x}
    requires x.maxTime <= hi && forall k :: 0 <= k < |u| ==> u[k].maxTime <= hi
    ensures forall k :: 0 <= k < |t| ==> t[k].maxTime <= hi
  {
    forall k | 0 <= k < |t|
      ensures t[k].maxTime <= hi
    {
      assert t[k] in multiset(t);
      if t[k] != x {
        assert t[k] in multiset(u);
        var j :| 0 <= j < |u| && u[j] == t[k];
      }
    }
  }

  lemma {:induction false} ConsByMaxTime(h: Offer, t: seq<Offer>)
    requires ByMaxTimeDesc(t) && (t == [] || t[0].maxTime <= h.maxTime)
    ensures ByMaxTimeDesc([h] + t)
  {
    var r := [h] + t;
    forall i, j | 0 <= i < j < |r|
      ensures r[j].maxTime <= r[i].maxTime
    {
      if i > 0 {
        assert r[i] == t[i - 1] && r[j] == t[j - 1];
      } else {
        assert r[j] == t[j - 1];
      }
    }
  }

  function InsertByMaxTime(x: Offer, s: seq<Offer>): (r: seq<Offer>)
    requires ByMaxTimeDesc(s)
    ensures ByMaxTimeDesc(r)
    ensures multiset(r) == multiset(s) + multiset{x}
  {
    if s == [] || s[0].maxTime <= x.maxTime then
      ConsByMaxTime(x, s);
      [x] + s
    else
      var tail := InsertByMaxTime(x, s[1..]);
      assert s == [s[0]] + s[1..];
      UpperBoundKept(s[0].maxTime, tail, s[1..], x);
      ConsByMaxTime(s[0], tail);
      [s[0]] + tail
  }

  /** `sort((a, b) => b.max_time - a.max_time)`: a stable insertion sort, longest
      duration first. */
  function SortByMaxTime(s: seq<Offer>): (r: seq<Offer>)
    ensures ByMaxTimeDesc(r)
    ensures multiset(r) == multiset(s)
    ensures |r| == |s|
  {
    if s == [] then []
    else
      assert s == [s[0]] + s[1..];
      var r := InsertByMaxTime(s[0], SortByMaxTime(s[1..]));
      assert |r| == |multiset(r)|;
      r
  }

  /** The longest duration any offer of a non-empty sample accepts. */
  function MaxTimeOf(s: seq<Offer>): (m: nat)
    requires s != []
    ensures exists o :: o in s && o.maxTime == m
    ensures forall o :: o in s ==> o.maxTime <= m
  {
    if |s| == 1 then s[0].maxTime
    else
      var r := MaxTimeOf(s[1..]);
      assert s == [s[0]] + s[1..];
      if s[0].maxTime >= r then s[0].maxTime else r
  }

  /** After the descending sort, the first offer carries the longest duration. */
  lemma {:induction false} SortByMaxTimeHead(s: seq<Offer>)
    requires s != []
    ensures SortByMaxTime(s)[0].maxTime == MaxTimeOf(s)
  {
    var t := SortByMaxTime(s);
    var m := MaxTimeOf(s);
    var o :| o in s && o.maxTime == m;
    assert o in multiset(t);
    var i :| 0 <= i < |t| && t[i] == o;
    assert t[0] in multiset(s);
  }

  /** The longest duration depends only on which offers are present. */
  lemma {:induction false} MaxTimeOfPermutation(a: seq<Offer>, b: seq<Offer>)
    requires a != [] && multiset(a) == multiset(b)
    ensures b != [] && MaxTimeOf(a) == MaxTimeOf(b)
  {
    assert a[0] in multiset(b);
    assert b != [];
    var ma, mb := MaxTimeOf(a), MaxTimeOf(b);
    var oa :| oa in a && oa.maxTime == ma;
    var ob :| ob in b && ob.maxTime == mb;
    assert oa in multiset(b) && ob in multiset(a);
  }

  lemma {:induction false} InsertByMaxTimePrices(x: Offer, s: seq<Offer>)
    requires ByMaxTimeDesc(s)
    ensures multiset(Prices1000(InsertByMaxTime(x, s))) == multiset{PerThousand(x.price)} + multiset(Prices1000(s))
  {
    var r := InsertByMaxTime(x, s);
    if s == [] || s[0].maxTime <= x.maxTime {
      assert r[1..] == s;
    } else {
      var tail := InsertByMaxTime(x, s[1..]);
      assert r[1..] == tail;
      InsertByMaxTimePrices(x, s[1..]);
    }
  }

  /** The descending sort of line 226 keeps the multiset of per-1000 prices. */
  lemma {:induction false} SortByMaxTimePrices(s: seq<Offer>)
    ensures multiset(Prices1000(SortByMaxTime(s))) == multiset(Prices1000(s))
  {
    if s != [] {
      SortByMaxTimePrices(s[1..]);
      InsertByMaxTimePrices(s[0], SortByMaxTime(s[1..]));
    }
  }
}

=== FILE: price_estimator.dfy ===
/** The tier price estimator (`estimatedPriceInfo`): from the sample of provider
    offers it recommends an "economy" and a "performance" price per 1000
    requests, by fixed positions for thin samples and by the 40th and 80th
    percentile positions of the ascending price order for larger ones. */
module PriceEstimator {
  import opened Basics
  import opened Offers

  /** The two recommended per-1000 prices, in base units. */
  datatype Tiers = Tiers(economy: nat, performance: nat)

  /** `Math.ceil(a / b)` on naturals: the least multiple count of b covering a. */
  function CeilDiv(a: nat, b: nat): (r: nat)
    requires b > 0
    ensures a <= r * b < a + b
  {
    (a + b - 1) / b
  }

  /** Line 115: `Math.ceil(n * 0.4)`, raised to 2 when smaller. */
  function EconomyIndex(n: nat): (k: nat)
    ensures 2 <= k && 2 * n <= 5 * k
    ensures k == 2 || 5 * k < 2 * n + 5
    ensures n >= 6 ==> k < n
  {
    var c := CeilDiv(2 * n, 5);
    if c < 2 then 2 else c
  }

  /** Line 116: `Math.ceil(n * 0.8)`, raised to 4 when smaller. */
  function PerformanceIndex(n: nat): (k: nat)
    ensures 4 <= k && 4 * n <= 5 * k
    ensures k == 4 || 5 * k < 4 * n + 5
    ensures n >= 6 ==> EconomyIndex(n) < k < n
  {
    var c := CeilDiv(4 * n, 5);
    if c < 4 then 4 else c
  }

  /** Lines 98-121: the tiers read off the ascending per-1000 prices of a
      non-empty sample, by sample size. Every position read is inside the
      sample, and the performance tier is never cheaper than the economy tier. */
  function TiersOfSorted(sorted: seq<nat>): (t: Tiers)
    requires sorted != [] && Ascending(sorted)
    ensures t.economy <= t.performance
  {
    var n := |sorted|;
    var maxPrice := sorted[n - 1];
    if n <= 3 then Tiers(maxPrice, maxPrice)
    else if n <= 5 then Tiers(sorted[2], maxPrice)
    else Tiers(sorted[EconomyIndex(n)], sorted[PerformanceIndex(n)])
  }

  /** `estimatedPriceInfo`: an absent or empty sample gives zero for both tiers;
      otherwise the per-1000 prices are sorted ascending and positions are
      picked by sample size. */
  function EstimateTiers(offers: Option<seq<Offer>>): (t: Tiers)
    ensures t.economy <= t.performance
    ensures offers.None? || offers.value == [] ==> t == Tiers(0, 0)
  {
    if offers.None? || |offers.value| == 0 then Tiers(0, 0)
    else TiersOfSorted(SortAsc(Prices1000(offers.value)))
  }

  /** With one to three offers, both tiers are the highest offered price. */
  lemma {:induction false} EstimateThinSample(s: seq<Offer>)
    requires 1 <= |s| <= 3
    ensures EstimateTiers(Some(s)).economy == MaxOf(Prices1000(s))
    ensures EstimateTiers(Some(s)).performance == MaxOf(Prices1000(s))
  {
    var ps := Prices1000(s);
    var sorted := SortAsc(ps);
    SortedLastIsMax(ps);
    ThinTiers(sorted);
  }

  lemma ThinTiers(sorted: seq<nat>)
    requires 1 <= |sorted| <= 3 && Ascending(sorted)
    ensures TiersOfSorted(sorted) == Tiers(sorted[|sorted| - 1], sorted[|sorted| - 1])
  {
  }

  /** With four or five offers, economy is the third-cheapest price and
      performance the highest. */
  lemma {:induction false} EstimateMidSample(s: seq<Offer>)
    requires 4 <= |s| <= 5
    ensures IsRank(Prices1000(s), 2, EstimateTiers(Some(s)).economy)
    ensures EstimateTiers(Some(s)).performance == MaxOf(Prices1000(s))
  {
    var sorted := SortAsc(Prices1000(s));
    assert EstimateTiers(Some(s)) == Tiers(sorted[2], sorted[|s| - 1]);
    SortedLastIsMax(Prices1000(s));
    SortedRank(Prices1000(s), 2);
  }

  /** With six or more offers, economy is the price of rank max(2, ceil(0.4n))
      and performance the price of rank max(4, ceil(0.8n)), both ranks inside
      the sample. */
  lemma {:induction false} EstimateLargeSample(s: seq<Offer>)
    requires |s| >= 6
    ensures EconomyIndex(|s|) < PerformanceIndex(|s|) < |s|
    ensures IsRank(Prices1000(s), EconomyIndex(|s|), EstimateTiers(Some(s)).economy)
    ensures IsRank(Prices1000(s), PerformanceIndex(|s|), EstimateTiers(Some(s)).performance)
  {
    SortedRank(Prices1000(s), EconomyIndex(|s|));
    SortedRank(Prices1000(s), PerformanceIndex(|s|));
  }

  /** Each recommended price of a non-empty sample is some provider's own price. */
  lemma {:induction false} EstimateInSample(s: seq<Offer>)
    requires s != []
    ensures EstimateTiers(Some(s)).economy in Prices1000(s)
    ensures EstimateTiers(Some(s)).performance in Prices1000(s)
  {
    var sorted := SortAsc(Prices1000(s));
    var t := EstimateTiers(Some(s));
    assert t.economy in sorted && t.performance in sorted;
    assert t.economy in multiset(sorted) && t.performance in multiset(sorted);
  }

  /** The estimate depends only on the multiset of per-1000 prices, not on the
      order in which the listing returned the offers. */
  lemma {:induction false} EstimatePriceMultiset(a: seq<Offer>, b: seq<Offer>)
    requires multiset(Prices1000(a)) == multiset(Prices1000(b))
    ensures EstimateTiers(Some(a)) == EstimateTiers(Some(b))
  {
    assert |a| == |Prices1000(a)| == |multiset(Prices1000(a))| == |multiset(Prices1000(b))| == |b|;
    SortAscPermutation(Prices1000(a), Prices1000(b));
  }

  /** The in-place `max_time` sort of the plan stage leaves the estimate as it was. */
  lemma {:induction false} EstimateUnchangedBySort(s: seq<Offer>)
    ensures EstimateTiers(Some(SortByMaxTime(s))) == EstimateTiers(Some(s))
  {
    SortByMaxTimePrices(s);
    EstimatePriceMultiset(SortByMaxTime(s), s);
  }

  /** Six offers' per-1000 prices, ascending. */
  const TenThroughSixty: seq<nat> := [10_000, 20_000, 30_000, 40_000, 50_000, 60_000]

  lemma TenThroughSixtyAscending()
    ensures Ascending(TenThroughSixty)
  {
  }

  lemma {:induction false} SortsToTenThroughSixty(ps: seq<nat>)
    requires multiset(ps) == multiset(TenThroughSixty)
    ensures SortAsc(ps) == TenThroughSixty
  {
    TenThroughSixtyAscending();
    AscendingUnique(SortAsc(ps), TenThroughSixty);
  }

  /** Positions ceil(2.4) = 3 and ceil(4.8) = 5 of the six ascending prices. */
  lemma TiersOfTenThroughSixty()
    ensures Ascending(TenThroughSixty) && TiersOfSorted(TenThroughSixty) == Tiers(40_000, 60_000)
  {
    TenThroughSixtyAscending();
    assert EconomyIndex(6) == 3 && PerformanceIndex(6) == 5;
  }

  /** Six offers quoting 10, 20, .., 60 thousand base units per 1000 requests,
      listed in any order, give 40 and 60 thousand. */
  lemma {:induction false} EstimateSixOffers(s: seq<Offer>)
    requires multiset(Prices1000(s)) == multiset(TenThroughSixty)
    ensures EstimateTiers(Some(s)) == Tiers(40_000, 60_000)
  {
    SortsToTenThroughSixty(Prices1000(s));
    assert |s| == |Prices1000(s)| == |multiset(TenThroughSixty)| == 6;
    TiersOfTenThroughSixty();
  }
}
